=== FILE: README.md ===
# Immaculate CRM core, in Dafny

A model of the booking core of a small car-detailing CRM. It has three parts.

- **The webhook.** The webhook that form submissions are posted to (`app/api/webhook/route.ts`). It reconciles the many field spellings of a submission into one canonical field set. It normalises the phone number and works out the list of booked services from checkbox fields and a single service field. It then resolves the submission to a customer and appends a booking.
- **The store.** The in-memory store of `lib/data.ts` holds the `customers` and `bookings` arrays. The model covers every accessor of the store, the webhook's `findOrCreateCustomer` resolver and the `getStats` dashboard aggregator.
- **The records.** The record shapes come from `lib/types.ts`.

The store is an immutable value `Store(customers, bookings)`. Every source function that mutates the module-level arrays becomes a function from one store to the next, returned together with the function's result (`Step`). Several source functions mutate those arrays in place without saying so:

- `getCustomers` and `getBookings` sort them;
- `addBooking` bumps a customer's counters;
- `findOrCreateCustomer` pushes vehicles onto a stored customer.

The model makes each of those state changes explicit.

Modules, in dependency order:

- `Seqs`: the generic helpers `find`/`findIndex` (`FirstIndex`), `filter` and `slice(0, n)`.
- `Sorting`: the stable descending sort that `Array.prototype.sort` performs with a `(a, b) => key(b) - key(a)` comparator.
- `Text`: the `\d` and `\s` classes, `toLowerCase`, one-character global `replace`, `\s+` collapsing and `includes`.
- `Tally`: `counts[k] = (counts[k] || 0) + 1` counting and top-N ranking. This module also holds the as-written counter object described under Findings.
- `Records`: `Customer`, `Booking` and their `Omit<…>`/`Partial<…>` shapes.
- `Store`: every store accessor of `lib/data.ts`, `findOrCreateCustomer`, and the invariants a sequence of webhook deliveries keeps.
- `Webhook`: field probing, `normalizePhone`, `extractServices`, and the delivery itself.
- `Stats`: `getStats`.

Timestamps are the instants they denote, as integer milliseconds. The ISO strings and `new Date(..)` parsing are not modelled. Ids, the clock and the calendar month of an instant are parameters (see Left out).

In one respect the code disagrees with the intuitive reading of `extractServices`, namely that the "General Inquiry" fallback is returned only when nothing was submitted. The model follows the code. The result is the single `"General Inquiry"` exactly when no checkbox is ticked and the service field is either empty or is literally `"General Inquiry"` itself (`Webhook.ExtractServicesFallback`).

## Model

| member | source | states |
|---|---|---|
| Store.GetCustomers | immaculate-crm-app/lib/data.ts:8-12 | the result is a permutation of the stored customers ordered by `lastVisit`, latest first, and it becomes the new storage order |
| Store.GetCustomersIsStable | immaculate-crm-app/lib/data.ts:9-11 | customers with equal `lastVisit` keep their stored relative order |
| Store.GetBookings | immaculate-crm-app/lib/data.ts:45-49 | the result is a permutation of the stored bookings ordered by `date`, latest first, and it becomes the new storage order |
| Store.GetBookingsByCustomerIsStable | immaculate-crm-app/lib/data.ts:50-54 | a customer's bookings with equal `date` keep their stored relative order, as the stable sort after `filter` does |
| Store.GetBookingsIsStable | immaculate-crm-app/lib/data.ts:46-48 | bookings with equal `date` keep their stored relative order |
| Store.GetBookingsByCustomer | immaculate-crm-app/lib/data.ts:51-55 | the result holds exactly the stored bookings of that customer, each as often as stored, latest first |
| Store.GetCustomerById | immaculate-crm-app/lib/data.ts:14-16 | the result is absent exactly when no stored customer has the id; otherwise it is the first customer with that id |
| Store.SearchCustomers | immaculate-crm-app/lib/data.ts:18-26 | a stored customer is returned exactly when its lower-cased name, raw phone, lower-cased email or some lower-cased vehicle contains the lower-cased query |
| Store.SearchConcat | immaculate-crm-app/lib/data.ts:20-25 | searching two runs of customers gives the results of the first run followed by those of the second, so results keep stored order and multiplicity |
| Store.SearchOne | immaculate-crm-app/lib/data.ts:20-25 | a single customer is returned, once, exactly when it matches the lower-cased query |
| Store.SearchEmptyQueryIsEverything | immaculate-crm-app/lib/data.ts:18-26 | the empty query returns every stored customer in stored order |
| Store.AddCustomer | immaculate-crm-app/lib/data.ts:28-36 | appends one customer carrying every draft field unchanged, plus the given id and creation time |
| Store.Overlay | immaculate-crm-app/lib/data.ts:41 | an empty patch changes nothing, a patch without an id keeps the id, and a given phone replaces the stored one |
| Store.OverlayIdempotent | immaculate-crm-app/lib/data.ts:41 | applying the same patch twice is the same as applying it once |
| Store.UpdateCustomer | immaculate-crm-app/lib/data.ts:38-43 | null exactly when the id is unknown, and then the store is unchanged; otherwise only the first customer with that id is replaced, by the patch overlaid on it |
| Store.UpdateThenGet | immaculate-crm-app/lib/data.ts:38-43 | after an update whose patch carries no id or the same id, looking the id up returns the updated customer |
| Store.AddBooking | immaculate-crm-app/lib/data.ts:57-73 | appends the booking with the draft's fields. Only the first customer whose id the booking names changes, and only its `totalBookings` (+1) and `lastVisit` (the booking date). With no such customer, the customers are unchanged |
| Store.Resolve | immaculate-crm-app/lib/data.ts:146-154 | the first stored customer with the same non-empty phone wins. Failing that, and only for a non-empty name, the first case-insensitive name match wins. It is none exactly when neither exists |
| Store.EmptyPhoneResolvesByName | immaculate-crm-app/lib/data.ts:147-153 | an empty incoming phone never matches by phone, so any match is a name match |
| Store.Merge | immaculate-crm-app/lib/data.ts:156-164 | a matched customer gains the incoming vehicle only when it is new and non-empty, and gains the incoming email only when its own is empty. An empty or already-listed vehicle leaves the list exactly as it was. Nothing else changes, and a duplicate-free vehicle list stays duplicate-free |
| Store.FindOrCreateCustomer | immaculate-crm-app/lib/data.ts:139-180 | a resolved customer is merged in place. Otherwise one new active customer is appended with the given fields, no bookings, zero spend and both visits at the current time |
| Store.FindOrCreateKeepsPhonesUnique | immaculate-crm-app/lib/data.ts:147 | if at most one customer holds each non-empty phone before, the same holds after |
| Store.FindOrCreateKeepsVehiclesDistinct | immaculate-crm-app/lib/data.ts:158-160 | no customer's vehicle list ever gains a duplicate |
| Store.FindOrCreateKeepsIdsUnique | immaculate-crm-app/lib/data.ts:168-179 | given a fresh id, customer ids stay unique |
| Store.FindOrCreateKeepsCounts | immaculate-crm-app/lib/data.ts:174 | a created customer's zero `totalBookings` matches its (absent) bookings, so every counter stays exact |
| Store.AddBookingKeepsCounts | immaculate-crm-app/lib/data.ts:63-70 | with unique ids, any booking keeps every `totalBookings` equal to the number of bookings naming that customer. This includes a booking whose customer id is not stored, which `addBooking` accepts |
| Store.ResolveAndBookKeepsConsistent | immaculate-crm-app/lib/data.ts:139-180 | resolving a customer and then booking (for that customer or any other id) keeps phones unique, vehicle lists duplicate-free, ids unique and counters exact |
| Store.ResolveAndBookCounts | immaculate-crm-app/lib/data.ts:66-70 | after resolving and booking, the resolved customer has one booking more than before (one if just created), its `lastVisit` is the booking date, and it lists the incoming vehicle |
| Store.CreatedCustomerFoundByPhone | immaculate-crm-app/lib/data.ts:147 | a customer created for a non-empty phone is the one any later submission with that phone resolves to |
| Store.MergedVehicleStays | immaculate-crm-app/lib/data.ts:158-160 | after merging and booking, the incoming vehicle is on the matched customer |
| Webhook.FirstTruthy | immaculate-crm-app/app/api/webhook/route.ts:94 | the chain of logical-or alternatives ending in the empty string: empty exactly when no probed key is truthy; otherwise the value of the first truthy key |
| Webhook.SoleKeyDecides | immaculate-crm-app/app/api/webhook/route.ts:89-100 | whichever single spelling of a field carries a value, the canonical field gets that value |
| Webhook.NormalizePhone | immaculate-crm-app/app/api/webhook/route.ts:22-26 | the result is the last `min(10, n)` of the input's `n` digits: digits only, at most ten, and empty for empty input |
| Webhook.NormalizePhoneIdempotent | immaculate-crm-app/app/api/webhook/route.ts:22-26 | normalising an already normalised phone changes nothing |
| Webhook.CatalogueNamesDistinct | immaculate-crm-app/app/api/webhook/route.ts:7-20 | no two checkbox services share a display name |
| Webhook.MiniDetailSpellings | immaculate-crm-app/app/api/webhook/route.ts:33-39 | the five probed spellings of the "Mini Detail" checkbox are its key, the key with underscores, the key with spaces, and the lower-cased name joined by a hyphen or an underscore |
| Webhook.ContributedMembers | immaculate-crm-app/app/api/webhook/route.ts:32-47 | a display name is pushed exactly when some ticked catalogue entry carries it, and at most once per entry |
| Webhook.ContributedInOrder | immaculate-crm-app/app/api/webhook/route.ts:32-47 | the pushed names are those of the ticked entries, in catalogue order |
| Webhook.ContributedNoDup | immaculate-crm-app/app/api/webhook/route.ts:32-47 | with distinct display names, no name is pushed twice |
| Webhook.ExtractFromIncludes | immaculate-crm-app/app/api/webhook/route.ts:28-56 | the services are never empty, and include every ticked service and the service field |
| Webhook.ExtractFromOnly | immaculate-crm-app/app/api/webhook/route.ts:28-56 | the services contain nothing but ticked services, the service field and the fallback, and are the single fallback when nothing is ticked or given |
| Webhook.ExtractFromNoDup | immaculate-crm-app/app/api/webhook/route.ts:49-55 | the service field is added only when not already listed, so the list has no duplicates |
| Webhook.ExtractServicesNonEmptyNoDup | immaculate-crm-app/app/api/webhook/route.ts:28-56 | `extractServices` always returns a non-empty, duplicate-free list |
| Webhook.SentinelNotInCatalogue | immaculate-crm-app/app/api/webhook/route.ts:7-20 | no checkbox service is called "General Inquiry" |
| Webhook.ExtractFromFallback | immaculate-crm-app/app/api/webhook/route.ts:49-55 | over a catalogue without the fallback name, the result is the single fallback exactly when nothing is ticked and the service field is empty or equal to the fallback |
| Webhook.ExtractServicesFallback | immaculate-crm-app/app/api/webhook/route.ts:28-56 | `extractServices` returns `["General Inquiry"]` exactly when no checkbox is ticked and the service field is empty or literally "General Inquiry" |
| Webhook.NormalizedName | immaculate-crm-app/app/api/webhook/route.ts:85-87 | the canonical name is never empty |
| Webhook.NormalizedNameCases | immaculate-crm-app/app/api/webhook/route.ts:85-87 | a truthy name key wins. Otherwise the name is the non-empty first and last names, space-separated, and "Unknown" only when all are empty |
| Webhook.Normalize | immaculate-crm-app/app/api/webhook/route.ts:85-102 | the canonical fields have a non-empty name, a phone of at most ten digits, and a non-empty, duplicate-free service list |
| Webhook.NormalizeSoleKey | immaculate-crm-app/app/api/webhook/route.ts:89-100 | whichever single spelling a submission uses for phone, email, zip code or vehicle, the canonical field is that spelling's value (the phone normalised) |
| Webhook.NormalizeAbsent | immaculate-crm-app/app/api/webhook/route.ts:89-100 | email, zip code and vehicle are empty exactly when none of their spellings is truthy. The phone is empty when none of its spellings is |
| Webhook.Deliver | immaculate-crm-app/app/api/webhook/route.ts:104-123 | the appended booking is pending, snapshots the incoming fields, is dated now and names the resolved customer. That customer is the stored one when resolution succeeds (no customer added), else the new one (one customer added) |
| Webhook.Receive | immaculate-crm-app/app/api/webhook/route.ts:85-123 | every webhook booking is appended, pending, and has a non-empty name, a phone of at most ten digits and a non-empty, duplicate-free service list |
| Webhook.DeliverKeepsConsistent | immaculate-crm-app/app/api/webhook/route.ts:105-123 | with a fresh customer id, a delivery keeps phones unique, vehicle lists duplicate-free, ids unique and every `totalBookings` exact |
| Webhook.DeliverCountsBooking | immaculate-crm-app/app/api/webhook/route.ts:105-123 | after a delivery, the resolved customer has one more booking (one if new), `lastVisit` equal to now, and the incoming vehicle |
| Webhook.RepeatPhoneSameCustomer | immaculate-crm-app/app/api/webhook/route.ts:105-123 | two deliveries with the same non-empty phone, the first of which created its customer, land on the same customer whatever the names, and add exactly one customer |
| Tally.TallyCounts | immaculate-crm-app/lib/data.ts:91-96 | the counter table has one entry per distinct item, holding its number of occurrences |
| Tally.OccurrencesConcat | immaculate-crm-app/lib/data.ts:92-95 | counting over a concatenation adds the counts of the parts |
| Tally.TopIsRanking | immaculate-crm-app/lib/data.ts:97-100 | top-N keeps at most N distinct items with their true counts, largest first, and every item left out counts no more than any kept |
| Tally.JsTallyAgrees | immaculate-crm-app/lib/data.ts:91-96 | when no item is an inherited property name, the object-based counters equal the exact counter table |
| Tally.JsTallyMiscounts | immaculate-crm-app/lib/data.ts:91-96 | the as-written counters give "constructor" a non-numeric count and drop "__proto__", while the exact table counts both as 1 |
| Stats.ZipCodes | immaculate-crm-app/lib/data.ts:115-120 | only zip codes that are non-empty and not "N/A" are counted |
| Stats.GetStats | immaculate-crm-app/lib/data.ts:75-136 | the totals are the array lengths and the monthly figures never exceed them. There are at most 8 popular services and 10 zip codes. The recent bookings are the first ten stored. There are 12 month buckets, oldest first, ending with the current month, whose count is `bookingsThisMonth` |
| Stats.BucketCounts | immaculate-crm-app/lib/data.ts:104-111 | bucket `i` counts exactly the bookings dated in month `first + i` |
| Stats.NewCustomersAfterFindOrCreate | immaculate-crm-app/lib/data.ts:80-83 | `newCustomersThisMonth` grows by one when `findOrCreateCustomer` creates a customer and the current time falls in the current month. It is unchanged when the submission merges into a stored customer, because a merge keeps `createdAt` |
| Stats.BookingsThisMonthAfterBooking | immaculate-crm-app/lib/data.ts:85-88 | `bookingsThisMonth` grows by one exactly when `addBooking` appends a booking dated in the current month, and is unchanged otherwise |
| Stats.BookingsByMonthCounts | immaculate-crm-app/lib/data.ts:103-112 | every bucket of `bookingsByMonth` counts exactly the bookings dated in its month. With the month numbering `GetStats` states, bucket `i` counts month `current - 11 + i` |
| Stats.BucketsSum | immaculate-crm-app/lib/data.ts:103-112 | the buckets together count every booking of their window exactly once |
| Stats.BookingsByMonthCoversYear | immaculate-crm-app/lib/data.ts:103-112 | `bookingsByMonth` accounts for exactly the bookings of the last twelve months, the current one included |
| Stats.ServiceOccurrences | immaculate-crm-app/lib/data.ts:91-96 | when no booking lists a service twice, a service's count is the number of bookings listing it |
| Stats.PopularRanking | immaculate-crm-app/lib/data.ts:90-100 | the services are ranked by number of bookings, largest first, with no service left out booked more often than one kept |
| Stats.PopularServicesRanked | immaculate-crm-app/lib/data.ts:90-100 | `popularServices` is such a ranking of the stored bookings |
| Stats.ZipOccurrences | immaculate-crm-app/lib/data.ts:115-120 | a counted zip code's count is the number of customers with that zip code |
| Stats.ZipRanking | immaculate-crm-app/lib/data.ts:114-124 | the zip codes are ranked by number of customers, largest first, none empty or "N/A", with no zip code left out held by more customers than one kept |
| Stats.TopZipCodesRanked | immaculate-crm-app/lib/data.ts:114-124 | `topZipCodes` is such a ranking of the stored customers |
| Stats.RecentAreLatest | immaculate-crm-app/lib/data.ts:132 | once `getBookings` has sorted the store, no booking left out of `recentBookings` is dated after one shown |

## Left out

- HTTP handling is not modelled. This covers content-type sniffing, body parsing (JSON, form data, text), the 400/500 responses, `NextResponse` and the console logging. The model starts from a parsed payload of text values and ends with the ids the response acknowledges.
- Non-string payload values are not modelled. A JSON submission may carry booleans or numbers, and their JavaScript truthiness differs from that of text. The payload is a map from field name to text, as form submissions deliver it.
- `toLowerCase` is modelled on the ASCII letters only. Full Unicode case mapping is out of scope.
- Ids and clock reads are parameters. `Date.now()`, `Math.random()` and `new Date()` are not modelled. The source reads the clock separately at each of these points: route.ts:121, and data.ts:31, 32, 60, 61, 176 and 177. The model simplifies this by passing one `now` per step, which may differ from the source by the milliseconds between those reads. Id uniqueness is a precondition (`FreshCustomerId`) of the invariant lemmas rather than a property of the generator.
- The calendar is a parameter. `getMonth`/`getFullYear` depend on the host's time zone, so the calendar month of an instant is a caller-supplied function numbering months consecutively. Invalid dates (NaN times) are not modelled.
- The `month` labels of `bookingsByMonth` are not modelled. They come from `toLocaleDateString`, so each bucket carries its month number instead.
- The seed data (`data/seed.json`), the dashboard page, the customers API route and the styling configuration are not part of this model.
- Concurrency between requests is not modelled. Deliveries are applied one after another.
- `Object.entries` enumeration order of the counter objects is not modelled exactly. JavaScript lists integer-like keys (a zip code such as "90210") before the others. The model keeps counters in first-seen order. This decides the relative order of equal counts, and also which of several tied entries survive `slice(0, 8)` and `slice(0, 10)`. The properties the ranking lemmas state do not depend on either choice.
- Store.Overlay: its contract states only the empty patch, the id and the phone field. That every other carried field likewise replaces the stored one is its definition, not restated.
- Store.UpdateCustomer: a patch that explicitly carries `undefined` for a field (which would erase it) is not modelled. Every patch field is either absent or a value.
- Stats.GetStats: `popularServices` and `topZipCodes` are built on the exact counter table `Tally.Tally`, not on the plain-object counters of data.ts:91-100 and 115-124 (`Tally.JsTally`). For a service name or zip code that is an `Object.prototype` property name, the model's figures differ from the source's (see Findings). `Tally.JsTallyAgrees` proves the two agree on every other input.
- Stats.GetStats: the tie order follows first-seen order, not the `Object.entries` order. A zip code such as "90210" is an integer-like key, and JavaScript lists those in ascending numeric order ahead of all others. So when counts tie at the cut-off, the source's top ten zip codes (and top eight services, when a service name is integer-like) can differ from the model's.
- Stats.GetStats: its own contract only bounds `newCustomersThisMonth` and `bookingsThisMonth` by the totals. The buckets are related to the bookings by `Stats.BookingsByMonthCounts`. `GetStats` ties the last bucket to `bookingsThisMonth`, so that lemma also states what `bookingsThisMonth` counts. `newCustomersThisMonth` is related to the store operations by `Stats.NewCustomersAfterFindOrCreate`, and `bookingsThisMonth` also by `Stats.BookingsThisMonthAfterBooking`. Neither says, about an arbitrary store, which customers `newCustomersThisMonth` counts: that is given only by its definition.
- `Customer.totalSpent` is modelled as an `int`. In the source it is a JavaScript `number` and may be fractional. Nothing in the modelled code computes with it: it is copied, overlaid, and set to 0 for a new customer.

## Findings

| source | as written | input that shows it | evidently intended | confidence | as-written member | corrected member |
|---|---|---|---|---|---|---|
| immaculate-crm-app/lib/data.ts:91-96 | `serviceCounts` (and `zipCounts`, lines 115-120) is a plain `{}`, so the lookup-or-zero of a counter reads inherited `Object.prototype` members. For `s = "constructor"` the count becomes the string `"function Object() { [native code] }1"`. For `s = "__proto__"` the assignment is ignored and the service vanishes from the ranking | a booking whose service list is `["constructor"]`. The webhook's free-text `service` field lets a form submission deliver one | each distinct service (zip code) counted by its number of occurrences, whatever its name, e.g. with `Object.create(null)` or a `Map` | medium, not executed | Tally.JsTallyMiscounts | Tally.TallyCounts |

=== FILE: Records.dfy ===
/** The two record shapes of `lib/types.ts`.  Timestamps (ISO-8601 strings in
    the source, compared through `new Date(..).getTime()`) are modelled by
    the instant they denote, an integer count of milliseconds. */
module Records {
  import opened Seqs

  type Timestamp = int

  datatype CustomerStatus = Active | Inactive | Vip

  datatype BookingStatus = Pending | Confirmed | Completed | Cancelled

  datatype Customer = Customer(
    id: string,
    name: string,
    phone: string,
    email: string,
    zipCode: string,
    vehicles: seq<string>,
    totalBookings: int,
    totalSpent: int,
    firstVisit: Timestamp,
    lastVisit: Timestamp,
    status: CustomerStatus,
    createdAt: Timestamp,
    notes: Option<string>)

  datatype Booking = Booking(
    id: string,
    customerId: string,
    customerName: string,
    phone: string,
    vehicle: string,
    zipCode: string,
    services: seq<string>,
    date: Timestamp,
    scheduledDate: Option<string>,
    scheduledTime: Option<string>,
    status: BookingStatus,
    notes: Option<string>,
    createdAt: Timestamp)

  /** `Omit<Customer, 'id' | 'createdAt'>`: what a caller of `addCustomer` supplies. */
  datatype CustomerDraft = CustomerDraft(
    name: string,
    phone: string,
    email: string,
    zipCode: string,
    vehicles: seq<string>,
    totalBookings: int,
    totalSpent: int,
    firstVisit: Timestamp,
    lastVisit: Timestamp,
    status: CustomerStatus,
    notes: Option<string>)

  /** `Omit<Booking, 'id' | 'createdAt'>`: what a caller of `addBooking` supplies. */
  datatype BookingDraft = BookingDraft(
    customerId: string,
    customerName: string,
    phone: string,
    vehicle: string,
    zipCode: string,
    services: seq<string>,
    date: Timestamp,
    scheduledDate: Option<string>,
    scheduledTime: Option<string>,
    status: BookingStatus,
    notes: Option<string>)

  /** `Partial<Customer>`: each field either absent (`None`) or given. */
  datatype CustomerPatch = CustomerPatch(
    id: Option<string>,
    name: Option<string>,
    phone: Option<string>,
    email: Option<string>,
    zipCode: Option<string>,
    vehicles: Option<seq<string>>,
    totalBookings: Option<int>,
    totalSpent: Option<int>,
    firstVisit: Option<Timestamp>,
    lastVisit: Option<Timestamp>,
    status: Option<CustomerStatus>,
    createdAt: Option<Timestamp>,
    notes: Option<string>)

  function LastVisitOf(c: Customer): int {
    c.lastVisit
  }

  function DateOf(b: Booking): int {
    b.date
  }
}

=== FILE: Seqs.dfy ===
/** Sequence helpers shared by the record store, the stats aggregator and the
    webhook normaliser: the first-match search behind `Array.prototype.find`
    and `findIndex`, and the order-preserving `Array.prototype.filter`. */
module Seqs {

  datatype Option<T> = None | Some(value: T)

  /** No element occurs twice. */
  ghost predicate NoDup<T>(s: seq<T>) {
    forall i, j :: 0 <= i < j < |s| ==> s[i] != s[j]
  }

  /** No two elements share the same projection `f`. */
  ghost predicate DistinctBy<T, U>(s: seq<T>, f: T -> U) {
    forall i, j :: 0 <= i < j < |s| ==> f(s[i]) != f(s[j])
  }

  /** The index of the first element satisfying `p`, as `findIndex` returns it
      (`None` standing for -1). */
  function FirstIndex<T>(s: seq<T>, p: T -> bool): (r: Option<nat>)
    ensures r.Some? ==> r.value < |s| && p(s[r.value])
    ensures r.Some? ==> forall j :: 0 <= j < r.value ==> !p(s[j])
    ensures r.None? <==> forall j :: 0 <= j < |s| ==> !p(s[j])
    decreases |s|
  {
    if |s| == 0 then None
    else if p(s[0]) then Some(0)
    else match FirstIndex(s[1..], p)
      case None => None
      case Some(i) => Some(i + 1)
  }

  /** The elements satisfying `p`, in their original order. */
  function Filter<T>(s: seq<T>, p: T -> bool): (r: seq<T>)
    ensures |r| <= |s|
    ensures forall i :: 0 <= i < |r| ==> r[i] in s && p(r[i])
    ensures forall i :: 0 <= i < |s| && p(s[i]) ==> s[i] in r
    decreases |s|
  {
    if |s| == 0 then [] else (if p(s[0]) then [s[0]] else []) + Filter(s[1..], p)
  }

  /** One step of `Filter`, on a sequence written as head and tail. */
  lemma FilterCons<T>(a: T, s: seq<T>, p: T -> bool)
    ensures Filter([a] + s, p) == (if p(a) then [a] else []) + Filter(s, p)
  {
    assert ([a] + s)[1..] == s;
  }

  /** Two blocks of which one is empty may be swapped in front of a third. */
  lemma SwapAroundEmpty<T>(a: seq<T>, b: seq<T>, c: seq<T>)
    requires a == [] || b == []
    ensures a + (b + c) == b + (a + c)
  {
    if a == [] {
      assert a + (b + c) == b + c;
      assert a + c == c;
    } else {
      assert b + c == c;
      assert b + (a + c) == a + c;
    }
  }

  lemma {:induction false} FilterConcat<T>(a: seq<T>, b: seq<T>, p: T -> bool)
    ensures Filter(a + b, p) == Filter(a, p) + Filter(b, p)
    decreases |a|
  {
    if |a| == 0 {
      assert a + b == b;
    } else {
      assert (a + b)[1..] == a[1..] + b;
      FilterConcat(a[1..], b, p);
    }
  }

  /** Replacing one element by one the predicate judges alike keeps the
      number of elements selected. */
  lemma {:induction false} FilterUpdateCount<T>(s: seq<T>, i: nat, x: T, p: T -> bool)
    requires i < |s| && p(x) == p(s[i])
    ensures |Filter(s[i := x], p)| == |Filter(s, p)|
    decreases |s|
  {
    if i == 0 {
      assert s[i := x][1..] == s[1..];
    } else {
      assert s[i := x][1..] == s[1..][i - 1 := x];
      FilterUpdateCount(s[1..], i - 1, x, p);
    }
  }

  /** Filtering keeps everything exactly when every element passes. */
  lemma {:induction false} FilterKeepsAll<T>(s: seq<T>, p: T -> bool)
    requires forall i :: 0 <= i < |s| ==> p(s[i])
    ensures Filter(s, p) == s
    decreases |s|
  {
    if |s| > 0 {
      FilterKeepsAll(s[1..], p);
    }
  }

  /** Filtering with a predicate nothing satisfies gives the empty sequence. */
  lemma FilterNone<T>(s: seq<T>, p: T -> bool)
    requires forall i :: 0 <= i < |s| ==> !p(s[i])
    ensures Filter(s, p) == []
  {
  }

  /** The first `n` elements (all of them when there are fewer), like `slice(0, n)`. */
  function Take<T>(s: seq<T>, n: nat): (r: seq<T>)
    ensures |r| == if |s| <= n then |s| else n
    ensures r <= s
  {
    if |s| <= n then s else s[..n]
  }
}

=== FILE: Sorting.dfy ===
/** The stable descending sort that `Array.prototype.sort` performs when it is
    given a comparator of the form `(a, b) => key(b) - key(a)`.  Since ES2019
    the sort is stable, so its result is fully determined: ordered by key,
    largest first, with elements of equal key in their original relative order.
    The model computes that result by insertion. */
module Sorting {
  import opened Seqs

  /** Keys never increase from left to right. */
  ghost predicate SortedDesc<T>(s: seq<T>, key: T -> int) {
    forall i, j :: 0 <= i < j < |s| ==> key(s[i]) >= key(s[j])
  }

  /** Selects the elements whose key is exactly `k`. */
  function KeyIs<T>(key: T -> int, k: int): T -> bool {
    x => key(x) == k
  }

  /** Places `x` in front of the first element whose key is not larger. */
  function Insert<T>(x: T, s: seq<T>, key: T -> int): (r: seq<T>)
    requires SortedDesc(s, key)
    ensures SortedDesc(r, key)
    ensures multiset(r) == multiset(s) + multiset{x}
    ensures |r| == |s| + 1
    ensures r[0] == x || (|s| > 0 && r[0] == s[0])
    decreases |s|
  {
    if |s| == 0 then [x]
    else if key(x) >= key(s[0]) then [x] + s
    else
      var rest := Insert(x, s[1..], key);
      assert key(rest[0]) <= key(s[0]);
      assert forall i :: 0 <= i < |rest| ==> key(rest[i]) <= key(rest[0]);
      assert s == [s[0]] + s[1..];
      [s[0]] + rest
  }

  function SortDesc<T>(s: seq<T>, key: T -> int): (r: seq<T>)
    ensures SortedDesc(r, key)
    ensures multiset(r) == multiset(s)
    ensures |r| == |s|
    decreases |s|
  {
    if |s| == 0 then []
    else
      assert s == [s[0]] + s[1..];
      Insert(s[0], SortDesc(s[1..], key), key)
  }

  lemma {:induction false} InsertKeepsKeyClass<T>(x: T, s: seq<T>, key: T -> int, k: int)
    requires SortedDesc(s, key)
    ensures Filter(Insert(x, s, key), KeyIs(key, k))
         == (if key(x) == k then [x] else []) + Filter(s, KeyIs(key, k))
    decreases |s|
  {
    var p := KeyIs(key, k);
    var ex: seq<T> := if p(x) then [x] else [];
    if |s| == 0 {
      assert Insert(x, s, key) == [x] + [];
      FilterCons(x, [], p);
    } else if key(x) >= key(s[0]) {
      assert Insert(x, s, key) == [x] + s;
      FilterCons(x, s, p);
    } else {
      var rest := Insert(x, s[1..], key);
      var e0: seq<T> := if p(s[0]) then [s[0]] else [];
      var fs := Filter(s[1..], p);
      assert Insert(x, s, key) == [s[0]] + rest;
      FilterCons(s[0], rest, p);
      InsertKeepsKeyClass(x, s[1..], key, k);
      assert Filter(rest, p) == ex + fs;
      assert Filter(s, p) == e0 + fs;
      SwapAroundEmpty(e0, ex, fs);
    }
  }

  /** Stability: the elements sharing any one key value come out of the sort
      in exactly the order they went in. */
  lemma {:induction false} SortIsStable<T>(s: seq<T>, key: T -> int, k: int)
    ensures Filter(SortDesc(s, key), KeyIs(key, k)) == Filter(s, KeyIs(key, k))
    decreases |s|
  {
    if |s| > 0 {
      SortIsStable(s[1..], key, k);
      InsertKeepsKeyClass(s[0], SortDesc(s[1..], key), key, k);
    }
  }

  lemma {:induction false} InsertKeepsDistinct<T, U>(x: T, s: seq<T>, key: T -> int, f: T -> U)
    requires SortedDesc(s, key)
    requires DistinctBy(s, f)
    requires forall i :: 0 <= i < |s| ==> f(s[i]) != f(x)
    ensures DistinctBy(Insert(x, s, key), f)
    decreases |s|
  {
    if |s| > 0 && key(x) < key(s[0]) {
      InsertKeepsDistinct(x, s[1..], key, f);
      var rest := Insert(x, s[1..], key);
      forall i | 0 <= i < |rest|
        ensures f(rest[i]) != f(s[0])
      {
        assert rest[i] in multiset(rest);
        assert rest[i] == x || rest[i] in multiset(s[1..]);
      }
    }
  }

  /** Sorting never makes two elements share a projection that was unique before. */
  lemma {:induction false} SortKeepsDistinct<T, U>(s: seq<T>, key: T -> int, f: T -> U)
    requires DistinctBy(s, f)
    ensures DistinctBy(SortDesc(s, key), f)
    decreases |s|
  {
    if |s| > 0 {
      SortKeepsDistinct(s[1..], key, f);
      var sorted := SortDesc(s[1..], key);
      forall i | 0 <= i < |sorted|
        ensures f(sorted[i]) != f(s[0])
      {
        assert sorted[i] in multiset(s[1..]);
      }
      InsertKeepsDistinct(s[0], sorted, key, f);
    }
  }
}

=== FILE: Stats.dfy ===
/** `getStats`: the dashboard figures, computed from the two stored arrays in
    their current storage order.  The calendar month of an instant depends on
    the host's time zone; it is supplied by the caller as `monthOf`, which
    numbers months consecutively (year * 12 + month), so that the month `i`
    months before `current` is simply `current - i`. */
module Stats {
  import opened Seqs
  import opened Sorting
  import opened Records
  import opened Tally
  import opened Store

  datatype MonthCount = MonthCount(month: int, count: nat)

  datatype Stats = Stats(
    totalCustomers: nat,
    totalBookings: nat,
    newCustomersThisMonth: nat,
    bookingsThisMonth: nat,
    popularServices: seq<Entry>,
    recentBookings: seq<Booking>,
    bookingsByMonth: seq<MonthCount>,
    topZipCodes: seq<Entry>)

  const PopularLimit: nat := 8
  const RecentLimit: nat := 10
  const ZipLimit: nat := 10
  const MonthsShown: nat := 12

  function CreatedIn(monthOf: Timestamp -> int, m: int): Customer -> bool {
    (c: Customer) => monthOf(c.createdAt) == m
  }

  function BookedIn(monthOf: Timestamp -> int, m: int): Booking -> bool {
    (b: Booking) => monthOf(b.date) == m
  }

  /** Booked in one of the `n` months starting at `first`. */
  function BookedWithin(monthOf: Timestamp -> int, first: int, n: nat): Booking -> bool {
    (b: Booking) => first <= monthOf(b.date) < first + n
  }

  /** Every service name of every booking, in scan order. */
  function AllServices(bs: seq<Booking>): seq<string>
    decreases |bs|
  {
    if |bs| == 0 then [] else bs[0].services + AllServices(bs[1..])
  }

  /** A zip code that is counted: present and not the `N/A` placeholder. */
  predicate KeptZip(z: string) {
    z != "" && z != "N/A"
  }

  /** The counted zip codes of the customers, in scan order. */
  function ZipCodes(cs: seq<Customer>): (r: seq<string>)
    ensures forall i :: 0 <= i < |r| ==> KeptZip(r[i])
    decreases |cs|
  {
    if |cs| == 0 then []
    else (if KeptZip(cs[0].zipCode) then [cs[0].zipCode] else []) + ZipCodes(cs[1..])
  }

  /** One bucket per month, oldest first: months `first .. first + n - 1`. */
  function Buckets(bs: seq<Booking>, monthOf: Timestamp -> int, first: int, n: nat): (r: seq<MonthCount>)
    ensures |r| == n
    ensures forall i :: 0 <= i < n ==> r[i].month == first + i
    decreases n
  {
    if n == 0 then []
    else Buckets(bs, monthOf, first, n - 1)
         + [MonthCount(first + n - 1, |Filter(bs, BookedIn(monthOf, first + n - 1))|)]
  }

  function Sum(r: seq<MonthCount>): nat
    decreases |r|
  {
    if |r| == 0 then 0 else Sum(r[..|r| - 1]) + r[|r| - 1].count
  }

  function GetStats(s: Store, monthOf: Timestamp -> int, current: int): (r: Stats)
    ensures r.totalCustomers == |s.customers| && r.totalBookings == |s.bookings|
    ensures r.newCustomersThisMonth <= r.totalCustomers
    ensures r.bookingsThisMonth <= r.totalBookings
    ensures |r.popularServices| <= PopularLimit && |r.topZipCodes| <= ZipLimit
    ensures r.recentBookings <= s.bookings
    ensures |r.recentBookings| == if |s.bookings| <= RecentLimit then |s.bookings| else RecentLimit
    ensures |r.bookingsByMonth| == MonthsShown
    ensures forall i :: 0 <= i < MonthsShown ==> r.bookingsByMonth[i].month == current - 11 + i
    ensures r.bookingsByMonth[MonthsShown - 1] == MonthCount(current, r.bookingsThisMonth)
  {
    Stats(
      |s.customers|,
      |s.bookings|,
      |Filter(s.customers, CreatedIn(monthOf, current))|,
      |Filter(s.bookings, BookedIn(monthOf, current))|,
      Top(AllServices(s.bookings), PopularLimit),
      Take(s.bookings, RecentLimit),
      Buckets(s.bookings, monthOf, current - 11, MonthsShown),
      Top(ZipCodes(s.customers), ZipLimit))
  }

  // ---------------------------------------------------------------------
  // What the figures mean

  /** Filtering with a predicate that is the disjoint union of two others
      selects as many elements as the two together. */
  lemma {:induction false} FilterSplit<T>(s: seq<T>, either: T -> bool, p: T -> bool, q: T -> bool)
    requires forall i :: 0 <= i < |s| ==> (either(s[i]) <==> p(s[i]) || q(s[i]))
    requires forall i :: 0 <= i < |s| ==> !(p(s[i]) && q(s[i]))
    ensures |Filter(s, either)| == |Filter(s, p)| + |Filter(s, q)|
    decreases |s|
  {
    if |s| > 0 {
      FilterSplit(s[1..], either, p, q);
    }
  }

  /** The month buckets together hold every booking made in their window,
      each counted once. */
  lemma {:induction false} BucketsSum(bs: seq<Booking>, monthOf: Timestamp -> int, first: int, n: nat)
    ensures Sum(Buckets(bs, monthOf, first, n)) == |Filter(bs, BookedWithin(monthOf, first, n))|
    decreases n
  {
    var r := Buckets(bs, monthOf, first, n);
    if n == 0 {
      FilterNone(bs, BookedWithin(monthOf, first, n));
    } else {
      BucketsSum(bs, monthOf, first, n - 1);
      assert r[..n - 1] == Buckets(bs, monthOf, first, n - 1);
      FilterSplit(bs, BookedWithin(monthOf, first, n), BookedWithin(monthOf, first, n - 1),
                  BookedIn(monthOf, first + n - 1));
    }
  }

  /** How many bookings are dated in month `m`. */
  function BookingsIn(bs: seq<Booking>, monthOf: Timestamp -> int, m: int): nat {
    |Filter(bs, BookedIn(monthOf, m))|
  }

  /** Bucket `i` counts the bookings dated in month `first + i`. */
  lemma {:induction false} BucketCounts(bs: seq<Booking>, monthOf: Timestamp -> int, first: int, n: nat, i: nat)
    requires i < n
    ensures Buckets(bs, monthOf, first, n)[i].count == BookingsIn(bs, monthOf, first + i)
    decreases n
  {
    var pre := Buckets(bs, monthOf, first, n - 1);
    var last := MonthCount(first + n - 1, |Filter(bs, BookedIn(monthOf, first + n - 1))|);
    assert Buckets(bs, monthOf, first, n) == pre + [last];
    if i < n - 1 {
      BucketCounts(bs, monthOf, first, n - 1, i);
    }
  }

  /** `findOrCreateCustomer` adds one to `newCustomersThisMonth` when it
      creates a customer and the current time falls in the current month;
      merging into a stored customer leaves the figure unchanged. */
  lemma NewCustomersAfterFindOrCreate(s: Store, inc: Incoming, freshId: string, now: Timestamp,
                                      monthOf: Timestamp -> int, current: int)
    ensures GetStats(FindOrCreateCustomer(s, inc, freshId, now).store, monthOf, current).newCustomersThisMonth
         == GetStats(s, monthOf, current).newCustomersThisMonth
            + (if Resolve(s.customers, inc).None? && monthOf(now) == current then 1 else 0)
  {
    var r := FindOrCreateCustomer(s, inc, freshId, now);
    var p := CreatedIn(monthOf, current);
    match Resolve(s.customers, inc)
    case Some(i) =>
      FilterUpdateCount(s.customers, i, r.value, p);
    case None =>
      FilterConcat(s.customers, [r.value], p);
      FilterCons(r.value, [], p);
  }

  /** `addBooking` adds one to `bookingsThisMonth` exactly when the booking
      is dated in the current month. */
  lemma BookingsThisMonthAfterBooking(s: Store, d: BookingDraft, id: string, now: Timestamp,
                                      monthOf: Timestamp -> int, current: int)
    ensures GetStats(AddBooking(s, d, id, now).store, monthOf, current).bookingsThisMonth
         == GetStats(s, monthOf, current).bookingsThisMonth
            + (if monthOf(d.date) == current then 1 else 0)
  {
    var r := AddBooking(s, d, id, now);
    var p := BookedIn(monthOf, current);
    FilterConcat(s.bookings, [r.value], p);
    FilterCons(r.value, [], p);
  }

  /** Every bucket of `bookingsByMonth` counts the bookings dated in its
      month (which `GetStats` fixes as `current - 11 + i` for bucket `i`). */
  lemma BookingsByMonthCounts(s: Store, monthOf: Timestamp -> int, current: int, i: nat)
    requires i < MonthsShown
    ensures var b := GetStats(s, monthOf, current).bookingsByMonth[i];
            b.count == BookingsIn(s.bookings, monthOf, b.month)
  {
    BucketOf(GetStats(s, monthOf, current).bookingsByMonth, s.bookings, monthOf,
             current - 11, MonthsShown, i);
  }

  lemma BucketOf(r: seq<MonthCount>, bs: seq<Booking>, monthOf: Timestamp -> int,
                 first: int, n: nat, i: nat)
    requires r == Buckets(bs, monthOf, first, n) && i < n
    ensures r[i].count == BookingsIn(bs, monthOf, r[i].month)
  {
    BucketCounts(bs, monthOf, first, n, i);
  }

  /** `bookingsByMonth` accounts for exactly the bookings of the last twelve
      months, the current one included. */
  lemma BookingsByMonthCoversYear(s: Store, monthOf: Timestamp -> int, current: int)
    ensures Sum(GetStats(s, monthOf, current).bookingsByMonth)
         == |Filter(s.bookings, BookedWithin(monthOf, current - 11, MonthsShown))|
  {
    BucketsSum(s.bookings, monthOf, current - 11, MonthsShown);
  }

  function Lists(k: string): Booking -> bool {
    (b: Booking) => k in b.services
  }

  /** When no booking lists a service twice, a service's count is the number
      of bookings that list it. */
  lemma {:induction false} ServiceOccurrences(bs: seq<Booking>, k: string)
    requires forall i :: 0 <= i < |bs| ==> NoDup(bs[i].services)
    ensures Occurrences(AllServices(bs), k) == |Filter(bs, Lists(k))|
    decreases |bs|
  {
    if |bs| > 0 {
      ServiceOccurrences(bs[1..], k);
      OccurrencesConcat(bs[0].services, AllServices(bs[1..]), k);
      OccurrencesOnce(bs[0].services, k);
    }
  }

  /** Ranking the services of `bs`: most booked first, each with the number
      of bookings listing it, and no service left out booked more often than
      one kept. */
  ghost predicate RanksServices(r: seq<Entry>, bs: seq<Booking>) {
    && SortedDesc(r, CountOf)
    && DistinctBy(r, KeyOf)
    && (forall i :: 0 <= i < |r| ==> r[i].count == |Filter(bs, Lists(r[i].key))|)
    && (forall i, k :: 0 <= i < |bs| && k in bs[i].services && !Listed(r, k) ==>
          (|r| == PopularLimit
           && forall j :: 0 <= j < |r| ==> |Filter(bs, Lists(k))| <= r[j].count))
  }

  lemma PopularRanking(bs: seq<Booking>)
    requires forall i :: 0 <= i < |bs| ==> NoDup(bs[i].services)
    ensures RanksServices(Top(AllServices(bs), PopularLimit), bs)
  {
    var all := AllServices(bs);
    TopIsRanking(all, PopularLimit);
    AllServicesCovers(bs);
    forall k
      ensures Occurrences(all, k) == |Filter(bs, Lists(k))|
    {
      ServiceOccurrences(bs, k);
    }
  }

  /** `popularServices`: at most eight services ranked as above. */
  lemma PopularServicesRanked(s: Store, monthOf: Timestamp -> int, current: int)
    requires forall i :: 0 <= i < |s.bookings| ==> NoDup(s.bookings[i].services)
    ensures RanksServices(GetStats(s, monthOf, current).popularServices, s.bookings)
  {
    PopularRanking(s.bookings);
  }

  lemma {:induction false} AllServicesCovers(bs: seq<Booking>)
    ensures forall i, k :: 0 <= i < |bs| && k in bs[i].services ==> k in AllServices(bs)
    decreases |bs|
  {
    if |bs| > 0 {
      AllServicesCovers(bs[1..]);
      assert forall i :: 1 <= i < |bs| ==> bs[i] == bs[1..][i - 1];
    }
  }

  function ZipIs(z: string): Customer -> bool {
    (c: Customer) => c.zipCode == z
  }

  /** A counted zip code's count is the number of customers living there. */
  lemma {:induction false} ZipOccurrences(cs: seq<Customer>, z: string)
    requires KeptZip(z)
    ensures Occurrences(ZipCodes(cs), z) == |Filter(cs, ZipIs(z))|
    decreases |cs|
  {
    if |cs| > 0 {
      var head := if KeptZip(cs[0].zipCode) then [cs[0].zipCode] else [];
      ZipOccurrences(cs[1..], z);
      OccurrencesConcat(head, ZipCodes(cs[1..]), z);
      if KeptZip(cs[0].zipCode) {
        OccurrencesSnoc([], cs[0].zipCode, z);
      }
    }
  }

  lemma {:induction false} ZipCodesCover(cs: seq<Customer>)
    ensures forall i :: 0 <= i < |cs| && KeptZip(cs[i].zipCode) ==> cs[i].zipCode in ZipCodes(cs)
    decreases |cs|
  {
    if |cs| > 0 {
      ZipCodesCover(cs[1..]);
      assert forall i :: 1 <= i < |cs| ==> cs[i] == cs[1..][i - 1];
    }
  }

  /** Ranking the counted zip codes of `cs`: none empty or `N/A`, most
      customers first, each with its number of customers, and no counted zip
      code left out has more customers than one kept. */
  ghost predicate RanksZips(r: seq<Entry>, cs: seq<Customer>) {
    && SortedDesc(r, CountOf)
    && DistinctBy(r, KeyOf)
    && (forall i :: 0 <= i < |r| ==>
          KeptZip(r[i].key) && r[i].count == |Filter(cs, ZipIs(r[i].key))|)
    && (forall i :: (0 <= i < |cs| && KeptZip(cs[i].zipCode) && !Listed(r, cs[i].zipCode)) ==>
          (|r| == ZipLimit
           && forall j :: 0 <= j < |r| ==> |Filter(cs, ZipIs(cs[i].zipCode))| <= r[j].count))
  }

  lemma ZipRanking(cs: seq<Customer>)
    ensures RanksZips(Top(ZipCodes(cs), ZipLimit), cs)
  {
    var zips := ZipCodes(cs);
    TopIsRanking(zips, ZipLimit);
    ZipCodesCover(cs);
    forall z | KeptZip(z)
      ensures Occurrences(zips, z) == |Filter(cs, ZipIs(z))|
    {
      ZipOccurrences(cs, z);
    }
  }

  /** `topZipCodes`: at most ten zip codes ranked as above. */
  lemma TopZipCodesRanked(s: Store, monthOf: Timestamp -> int, current: int)
    ensures RanksZips(GetStats(s, monthOf, current).topZipCodes, s.customers)
  {
    ZipRanking(s.customers);
  }

  /** After `getBookings` has sorted the store, `recentBookings` are the
      latest bookings: none left out is dated after one shown. */
  lemma RecentAreLatest(s: Store, monthOf: Timestamp -> int, current: int)
    ensures var sorted := GetBookings(s).store;
      var r := GetStats(sorted, monthOf, current).recentBookings;
      forall i, j :: 0 <= i < |r| && |r| <= j < |sorted.bookings| ==>
        sorted.bookings[j].date <= r[i].date
  {
    var sorted := GetBookings(s).store;
    var r := GetStats(sorted, monthOf, current).recentBookings;
    SortedPrefixIsLatest(sorted.bookings, r);
  }

  lemma SortedPrefixIsLatest(bs: seq<Booking>, r: seq<Booking>)
    requires SortedDesc(bs, DateOf) && r <= bs
    ensures forall i, j :: 0 <= i < |r| && |r| <= j < |bs| ==> bs[j].date <= r[i].date
  {
    assert forall i :: 0 <= i < |r| ==> r[i] == bs[i];
  }
}

=== FILE: Store.dfy ===
/** The in-memory record store of `lib/data.ts` as an immutable state
    `(customers, bookings)`: every accessor that mutates the module-level
    arrays in the source returns the next state together with its result. */
module Store {
  import opened Seqs
  import opened Sorting
  import opened Text
  import opened Records

  datatype Store = Store(customers: seq<Customer>, bookings: seq<Booking>)

  /** The state after an operation, and what the operation returned. */
  datatype Step<T> = Step(store: Store, value: T)

  function IdIs(id: string): Customer -> bool {
    (c: Customer) => c.id == id
  }

  function ForCustomer(customerId: string): Booking -> bool {
    (b: Booking) => b.customerId == customerId
  }

  // ---------------------------------------------------------------------
  // Listing and lookup

  /** `getCustomers`: sorts the stored array in place by `lastVisit`, latest
      first, and returns it, so the storage order changes too. */
  function GetCustomers(s: Store): (r: Step<seq<Customer>>)
    ensures r.store == Store(r.value, s.bookings)
    ensures multiset(r.value) == multiset(s.customers)
    ensures SortedDesc(r.value, LastVisitOf)
  {
    var sorted := SortDesc(s.customers, LastVisitOf);
    Step(Store(sorted, s.bookings), sorted)
  }

  /** Customers with the same `lastVisit` keep their stored relative order. */
  lemma GetCustomersIsStable(s: Store, t: Timestamp)
    ensures Filter(GetCustomers(s).value, KeyIs(LastVisitOf, t))
         == Filter(s.customers, KeyIs(LastVisitOf, t))
  {
    SortIsStable(s.customers, LastVisitOf, t);
  }

  /** `getBookings`: sorts the stored array in place by `date`, latest first. */
  function GetBookings(s: Store): (r: Step<seq<Booking>>)
    ensures r.store == Store(s.customers, r.value)
    ensures multiset(r.value) == multiset(s.bookings)
    ensures SortedDesc(r.value, DateOf)
  {
    var sorted := SortDesc(s.bookings, DateOf);
    Step(Store(s.customers, sorted), sorted)
  }

  /** Bookings with the same `date` keep their stored relative order. */
  lemma GetBookingsIsStable(s: Store, t: Timestamp)
    ensures Filter(GetBookings(s).value, KeyIs(DateOf, t))
         == Filter(s.bookings, KeyIs(DateOf, t))
  {
    SortIsStable(s.bookings, DateOf, t);
  }

  /** `getBookingsByCustomer`: the customer's bookings, latest first.  The
      filter makes a fresh array, so the store itself is not reordered. */
  function GetBookingsByCustomer(s: Store, customerId: string): (r: seq<Booking>)
    ensures SortedDesc(r, DateOf)
    ensures forall i :: 0 <= i < |r| ==> r[i].customerId == customerId && r[i] in s.bookings
    ensures forall i :: 0 <= i < |s.bookings| && s.bookings[i].customerId == customerId ==>
              s.bookings[i] in r
    ensures multiset(r) == multiset(Filter(s.bookings, ForCustomer(customerId)))
  {
    var mine := Filter(s.bookings, ForCustomer(customerId));
    var r := SortDesc(mine, DateOf);
    SortedMembers(mine, DateOf);
    r
  }

  /** A customer's bookings with the same `date` keep their stored relative
      order, since the sort is stable. */
  lemma GetBookingsByCustomerIsStable(s: Store, customerId: string, t: Timestamp)
    ensures Filter(GetBookingsByCustomer(s, customerId), KeyIs(DateOf, t))
         == Filter(Filter(s.bookings, ForCustomer(customerId)), KeyIs(DateOf, t))
  {
    SortIsStable(Filter(s.bookings, ForCustomer(customerId)), DateOf, t);
  }

  lemma SortedMembers<T>(s: seq<T>, key: T -> int)
    ensures forall i :: 0 <= i < |SortDesc(s, key)| ==> SortDesc(s, key)[i] in s
    ensures forall i :: 0 <= i < |s| ==> s[i] in SortDesc(s, key)
  {
    var r := SortDesc(s, key);
    forall i | 0 <= i < |r|
      ensures r[i] in s
    {
      assert r[i] in multiset(s);
    }
    forall i | 0 <= i < |s|
      ensures s[i] in r
    {
      assert s[i] in multiset(r);
    }
  }

  /** `getCustomerById`: the first stored customer with that id. */
  function GetCustomerById(s: Store, id: string): (r: Option<Customer>)
    ensures r.None? <==> forall i :: 0 <= i < |s.customers| ==> s.customers[i].id != id
    ensures r.Some? ==> exists i :: (0 <= i < |s.customers| && s.customers[i] == r.value
              && r.value.id == id && forall j :: 0 <= j < i ==> s.customers[j].id != id)
  {
    match FirstIndex(s.customers, IdIs(id))
    case None => None
    case Some(i) => Some(s.customers[i])
  }

  /** The `searchCustomers` test for one customer, against an already
      lower-cased query: name, email and vehicles are lower-cased before the
      substring test, the phone is not. */
  predicate MatchesQuery(c: Customer, q: string) {
    || Contains(Lower(c.name), q)
    || Contains(c.phone, q)
    || Contains(Lower(c.email), q)
    || exists i :: 0 <= i < |c.vehicles| && Contains(Lower(c.vehicles[i]), q)
  }

  function Matching(q: string): Customer -> bool {
    (c: Customer) => MatchesQuery(c, q)
  }

  /** `searchCustomers`: the stored customers matching the query, in stored order. */
  function SearchCustomers(s: Store, query: string): (r: seq<Customer>)
    ensures |r| <= |s.customers|
    ensures forall i :: 0 <= i < |r| ==> r[i] in s.customers && MatchesQuery(r[i], Lower(query))
    ensures forall i :: 0 <= i < |s.customers| && MatchesQuery(s.customers[i], Lower(query)) ==>
              s.customers[i] in r
  {
    Filter(s.customers, Matching(Lower(query)))
  }

  /** Searching keeps stored order and multiplicity: searching two runs of
      customers is searching each and concatenating. */
  lemma SearchConcat(a: seq<Customer>, b: seq<Customer>, bs: seq<Booking>, query: string)
    ensures SearchCustomers(Store(a + b, bs), query)
         == SearchCustomers(Store(a, bs), query) + SearchCustomers(Store(b, bs), query)
  {
    FilterConcat(a, b, Matching(Lower(query)));
  }

  /** One customer is returned exactly when it matches, once. */
  lemma SearchOne(c: Customer, bs: seq<Booking>, query: string)
    ensures SearchCustomers(Store([c], bs), query)
         == if MatchesQuery(c, Lower(query)) then [c] else []
  {
    FilterCons(c, [], Matching(Lower(query)));
  }

  /** Every customer matches the empty query, so it returns the whole store. */
  lemma SearchEmptyQueryIsEverything(s: Store)
    ensures SearchCustomers(s, "") == s.customers
  {
    forall i | 0 <= i < |s.customers|
      ensures MatchesQuery(s.customers[i], Lower(""))
    {
      ContainsEmpty(Lower(s.customers[i].name));
    }
    FilterKeepsAll(s.customers, Matching(Lower("")));
  }

  // ---------------------------------------------------------------------
  // Writes

  /** The fields of a stored customer that its creator supplied. */
  function DraftOf(c: Customer): CustomerDraft {
    CustomerDraft(c.name, c.phone, c.email, c.zipCode, c.vehicles, c.totalBookings,
                  c.totalSpent, c.firstVisit, c.lastVisit, c.status, c.notes)
  }

  /** The fields of a stored booking that its creator supplied. */
  function BookingDraftOf(b: Booking): BookingDraft {
    BookingDraft(b.customerId, b.customerName, b.phone, b.vehicle, b.zipCode, b.services,
                 b.date, b.scheduledDate, b.scheduledTime, b.status, b.notes)
  }

  /** `addCustomer`: appends the draft completed with an id and a creation
      time (both generated from the clock in the source, supplied here). */
  function AddCustomer(s: Store, d: CustomerDraft, id: string, now: Timestamp): (r: Step<Customer>)
    ensures r.store == Store(s.customers + [r.value], s.bookings)
    ensures DraftOf(r.value) == d
    ensures r.value.id == id && r.value.createdAt == now
  {
    var c := Customer(id, d.name, d.phone, d.email, d.zipCode, d.vehicles, d.totalBookings,
                      d.totalSpent, d.firstVisit, d.lastVisit, d.status, now, d.notes);
    Step(Store(s.customers + [c], s.bookings), c)
  }

  function Pick<T>(o: Option<T>, keep: T): T {
    match o
    case Some(v) => v
    case None => keep
  }

  /** `{ ...c, ...p }`: every field the patch carries replaces the stored one. */
  function Overlay(c: Customer, p: CustomerPatch): (r: Customer)
    ensures p == CustomerPatch(None, None, None, None, None, None, None, None, None, None, None, None, None) ==> r == c
    ensures p.id.None? ==> r.id == c.id
    ensures p.phone.Some? ==> r.phone == p.phone.value
  {
    Customer(Pick(p.id, c.id), Pick(p.name, c.name), Pick(p.phone, c.phone),
             Pick(p.email, c.email), Pick(p.zipCode, c.zipCode), Pick(p.vehicles, c.vehicles),
             Pick(p.totalBookings, c.totalBookings), Pick(p.totalSpent, c.totalSpent),
             Pick(p.firstVisit, c.firstVisit), Pick(p.lastVisit, c.lastVisit),
             Pick(p.status, c.status), Pick(p.createdAt, c.createdAt),
             if p.notes.Some? then p.notes else c.notes)
  }

  /** Applying the same patch twice is applying it once. */
  lemma OverlayIdempotent(c: Customer, p: CustomerPatch)
    ensures Overlay(Overlay(c, p), p) == Overlay(c, p)
  {
  }

  /** `updateCustomer`: overlays the patch on the first customer with that id;
      an unknown id yields `null` and leaves the store as it was. */
  function UpdateCustomer(s: Store, id: string, p: CustomerPatch): (r: Step<Option<Customer>>)
    ensures r.value.None? <==> forall i :: 0 <= i < |s.customers| ==> s.customers[i].id != id
    ensures r.value.None? ==> r.store == s
    ensures r.value.Some? ==> (r.store.bookings == s.bookings
              && exists i :: (0 <= i < |s.customers| && s.customers[i].id == id
                   && (forall j :: 0 <= j < i ==> s.customers[j].id != id)
                   && r.value.value == Overlay(s.customers[i], p)
                   && r.store.customers == s.customers[i := r.value.value]))
  {
    match FirstIndex(s.customers, IdIs(id))
    case None => Step(s, None)
    case Some(i) =>
      var c := Overlay(s.customers[i], p);
      Step(Store(s.customers[i := c], s.bookings), Some(c))
  }

  /** Looking the id up again after an update that keeps the id finds the
      updated record. */
  lemma UpdateThenGet(s: Store, id: string, p: CustomerPatch)
    requires p.id.None? || p.id == Some(id)
    ensures UpdateCustomer(s, id, p).value.Some? ==>
              GetCustomerById(UpdateCustomer(s, id, p).store, id) == UpdateCustomer(s, id, p).value
  {
    var r := UpdateCustomer(s, id, p);
    if r.value.Some? {
      var i :| 0 <= i < |s.customers| && s.customers[i].id == id
                   && (forall j :: 0 <= j < i ==> s.customers[j].id != id)
                   && r.value.value == Overlay(s.customers[i], p)
                   && r.store.customers == s.customers[i := r.value.value];
      assert r.store.customers[i].id == id;
      assert forall j :: 0 <= j < i ==> r.store.customers[j].id != id;
    }
  }

  /** `addBooking`: appends the booking, then bumps `totalBookings` and sets
      `lastVisit` on the first customer whose id the booking names, if any. */
  function AddBooking(s: Store, d: BookingDraft, id: string, now: Timestamp): (r: Step<Booking>)
    ensures r.store.bookings == s.bookings + [r.value]
    ensures BookingDraftOf(r.value) == d
    ensures r.value.id == id && r.value.createdAt == now
    ensures |r.store.customers| == |s.customers|
    ensures forall j :: 0 <= j < |s.customers| ==>
              r.store.customers[j] == s.customers[j].(totalBookings := r.store.customers[j].totalBookings,
                                                      lastVisit := r.store.customers[j].lastVisit)
    ensures (forall i :: 0 <= i < |s.customers| ==> s.customers[i].id != d.customerId) ==>
              r.store.customers == s.customers
    ensures forall i :: (0 <= i < |s.customers| && s.customers[i].id == d.customerId
              && (forall j :: 0 <= j < i ==> s.customers[j].id != d.customerId)) ==>
                 r.store.customers == s.customers[i := s.customers[i].(
                   totalBookings := s.customers[i].totalBookings + 1, lastVisit := d.date)]
  {
    var b := Booking(id, d.customerId, d.customerName, d.phone, d.vehicle, d.zipCode, d.services,
                     d.date, d.scheduledDate, d.scheduledTime, d.status, d.notes, now);
    var customers :=
      match FirstIndex(s.customers, IdIs(d.customerId))
      case None => s.customers
      case Some(i) =>
        s.customers[i := s.customers[i].(totalBookings := s.customers[i].totalBookings + 1,
                                          lastVisit := d.date)];
    Step(Store(customers, s.bookings + [b]), b)
  }

  // ---------------------------------------------------------------------
  // Customer resolution for the webhook

  /** The normalised fields `findOrCreateCustomer` receives; an absent
      optional field is the empty string. */
  datatype Incoming = Incoming(name: string, phone: string, email: string,
                               zipCode: string, vehicle: string)

  /** A stored phone matches only when it is non-empty and identical. */
  predicate PhoneHit(c: Customer, phone: string) {
    c.phone != "" && c.phone == phone
  }

  /** Case-insensitive exact name equality. */
  predicate NameHit(c: Customer, name: string) {
    Lower(c.name) == Lower(name)
  }

  function PhoneMatches(phone: string): Customer -> bool {
    (c: Customer) => PhoneHit(c, phone)
  }

  function NameMatches(name: string): Customer -> bool {
    (c: Customer) => NameHit(c, name)
  }

  /** Which stored customer an incoming submission belongs to: the first
      phone match; failing that, and only for a non-empty name, the first
      name match; otherwise none. */
  function Resolve(cs: seq<Customer>, inc: Incoming): (r: Option<nat>)
    ensures r.Some? ==> r.value < |cs|
    ensures (exists j :: 0 <= j < |cs| && PhoneHit(cs[j], inc.phone)) ==>
              r.Some? && PhoneHit(cs[r.value], inc.phone)
              && forall j :: 0 <= j < r.value ==> !PhoneHit(cs[j], inc.phone)
    ensures (forall j :: 0 <= j < |cs| ==> !PhoneHit(cs[j], inc.phone)) && inc.name != ""
              && (exists j :: 0 <= j < |cs| && NameHit(cs[j], inc.name)) ==>
              r.Some? && NameHit(cs[r.value], inc.name)
              && forall j :: 0 <= j < r.value ==> !NameHit(cs[j], inc.name)
    ensures r.None? <==> ((forall j :: 0 <= j < |cs| ==> !PhoneHit(cs[j], inc.phone))
              && (inc.name == "" || forall j :: 0 <= j < |cs| ==> !NameHit(cs[j], inc.name)))
  {
    match FirstIndex(cs, PhoneMatches(inc.phone))
    case Some(i) => Some(i)
    case None => if inc.name != "" then FirstIndex(cs, NameMatches(inc.name)) else None
  }

  /** An empty incoming phone can only ever resolve by name. */
  lemma EmptyPhoneResolvesByName(cs: seq<Customer>, inc: Incoming)
    requires inc.phone == ""
    ensures Resolve(cs, inc).Some? ==>
              inc.name != "" && NameHit(cs[Resolve(cs, inc).value], inc.name)
  {
  }

  /** The merge applied to a matched customer: the incoming vehicle is added
      when new, the incoming email only fills an empty one, and nothing else
      changes. */
  function Merge(c: Customer, inc: Incoming): (r: Customer)
    ensures r == c.(vehicles := r.vehicles, email := r.email)
    ensures r.email == if c.email == "" then inc.email else c.email
    ensures c.vehicles <= r.vehicles && |r.vehicles| <= |c.vehicles| + 1
    ensures inc.vehicle == "" || inc.vehicle in c.vehicles ==> r.vehicles == c.vehicles
    ensures forall v :: v in r.vehicles <==> v in c.vehicles || (v == inc.vehicle && v != "")
    ensures NoDup(c.vehicles) ==> NoDup(r.vehicles)
  {
    var vehicles :=
      if inc.vehicle != "" && inc.vehicle !in c.vehicles then c.vehicles + [inc.vehicle]
      else c.vehicles;
    var email := if inc.email != "" && c.email == "" then inc.email else c.email;
    c.(vehicles := vehicles, email := email)
  }

  /** What a webhook submission with no matching customer creates. */
  function NewCustomerDraft(inc: Incoming, now: Timestamp): CustomerDraft {
    CustomerDraft(inc.name, inc.phone, inc.email, inc.zipCode,
                  if inc.vehicle != "" then [inc.vehicle] else [],
                  0, 0, now, now, Active, None)
  }

  /** `findOrCreateCustomer`: merges into the resolved customer in place, or
      appends a new one. */
  function FindOrCreateCustomer(s: Store, inc: Incoming, freshId: string, now: Timestamp)
    : (r: Step<Customer>)
    ensures r.store.bookings == s.bookings
    ensures Resolve(s.customers, inc).Some? ==>
              var i := Resolve(s.customers, inc).value;
              r.value == Merge(s.customers[i], inc)
              && r.store.customers == s.customers[i := r.value]
    ensures Resolve(s.customers, inc).None? ==>
              r.store.customers == s.customers + [r.value]
              && r.value.id == freshId && r.value.name == inc.name && r.value.phone == inc.phone
              && r.value.email == inc.email && r.value.zipCode == inc.zipCode
              && r.value.vehicles == (if inc.vehicle == "" then [] else [inc.vehicle])
              && r.value.totalBookings == 0 && r.value.totalSpent == 0
              && r.value.status == Active && r.value.notes.None?
              && r.value.firstVisit == now && r.value.lastVisit == now && r.value.createdAt == now
  {
    match Resolve(s.customers, inc)
    case Some(i) =>
      var c := Merge(s.customers[i], inc);
      Step(Store(s.customers[i := c], s.bookings), c)
    case None =>
      AddCustomer(s, NewCustomerDraft(inc, now), freshId, now)
  }

  // ---------------------------------------------------------------------
  // Store invariants

  /** At most one customer per non-empty phone. */
  ghost predicate PhonesUnique(cs: seq<Customer>) {
    forall i, j :: 0 <= i < j < |cs| && cs[i].phone != "" ==> cs[i].phone != cs[j].phone
  }

  ghost predicate VehiclesDistinct(cs: seq<Customer>) {
    forall i :: 0 <= i < |cs| ==> NoDup(cs[i].vehicles)
  }

  ghost predicate IdsUnique(cs: seq<Customer>) {
    forall i, j :: 0 <= i < j < |cs| ==> cs[i].id != cs[j].id
  }

  /** Each customer's `totalBookings` is the number of bookings naming it. */
  ghost predicate CountsAgree(s: Store) {
    forall i :: 0 <= i < |s.customers| ==>
      s.customers[i].totalBookings == |Filter(s.bookings, ForCustomer(s.customers[i].id))|
  }

  lemma FindOrCreateKeepsPhonesUnique(s: Store, inc: Incoming, freshId: string, now: Timestamp)
    requires PhonesUnique(s.customers)
    ensures PhonesUnique(FindOrCreateCustomer(s, inc, freshId, now).store.customers)
  {
  }

  lemma FindOrCreateKeepsVehiclesDistinct(s: Store, inc: Incoming, freshId: string, now: Timestamp)
    requires VehiclesDistinct(s.customers)
    ensures VehiclesDistinct(FindOrCreateCustomer(s, inc, freshId, now).store.customers)
  {
  }

  lemma FindOrCreateKeepsIdsUnique(s: Store, inc: Incoming, freshId: string, now: Timestamp)
    requires IdsUnique(s.customers)
    requires forall i :: 0 <= i < |s.customers| ==> s.customers[i].id != freshId
    ensures IdsUnique(FindOrCreateCustomer(s, inc, freshId, now).store.customers)
  {
  }

  lemma FindOrCreateKeepsCounts(s: Store, inc: Incoming, freshId: string, now: Timestamp)
    requires CountsAgree(s)
    requires forall i :: 0 <= i < |s.bookings| ==> s.bookings[i].customerId != freshId
    ensures CountsAgree(FindOrCreateCustomer(s, inc, freshId, now).store)
  {
    if Resolve(s.customers, inc).None? {
      FilterNone(s.bookings, ForCustomer(freshId));
    }
  }

  /** With unique ids, a booking keeps every counter exact, whether or not
      its customer id is stored. */
  lemma AddBookingKeepsCounts(s: Store, d: BookingDraft, id: string, now: Timestamp)
    requires CountsAgree(s) && IdsUnique(s.customers)
    ensures CountsAgree(AddBooking(s, d, id, now).store)
  {
    var r := AddBooking(s, d, id, now);
    forall i | 0 <= i < |r.store.customers|
      ensures r.store.customers[i].totalBookings
           == |Filter(r.store.bookings, ForCustomer(r.store.customers[i].id))|
    {
      FilterConcat(s.bookings, [r.value], ForCustomer(s.customers[i].id));
    }
  }

  /** The invariants a store keeps across webhook deliveries. */
  ghost predicate Consistent(s: Store) {
    && PhonesUnique(s.customers)
    && VehiclesDistinct(s.customers)
    && IdsUnique(s.customers)
    && CountsAgree(s)
  }

  /** `id` has been used neither for a customer nor by a booking. */
  ghost predicate FreshCustomerId(s: Store, id: string) {
    && (forall i :: 0 <= i < |s.customers| ==> s.customers[i].id != id)
    && (forall i :: 0 <= i < |s.bookings| ==> s.bookings[i].customerId != id)
  }

  /** Where the resolved customer sits after `findOrCreateCustomer`. */
  function ResolvedIndex(s: Store, inc: Incoming): (k: nat)
    ensures k <= |s.customers|
  {
    match Resolve(s.customers, inc)
    case Some(i) => i
    case None => |s.customers|
  }

  lemma ResolvedIndexHolds(s: Store, inc: Incoming, freshId: string, now: Timestamp)
    requires IdsUnique(s.customers)
    requires forall i :: 0 <= i < |s.customers| ==> s.customers[i].id != freshId
    ensures var found := FindOrCreateCustomer(s, inc, freshId, now);
            var k := ResolvedIndex(s, inc);
            k < |found.store.customers| && found.store.customers[k] == found.value
            && forall j :: 0 <= j < |found.store.customers| && j != k ==>
                 found.store.customers[j].id != found.value.id
  {
    FindOrCreateKeepsIdsUnique(s, inc, freshId, now);
  }

  /** A booking changes no customer's phone, vehicles or id. */
  lemma AddBookingKeepsShape(s: Store, d: BookingDraft, id: string, now: Timestamp)
    ensures var after := AddBooking(s, d, id, now).store.customers;
            |after| == |s.customers|
            && forall j :: 0 <= j < |after| ==>
                 after[j].phone == s.customers[j].phone && after[j].vehicles == s.customers[j].vehicles
                 && after[j].id == s.customers[j].id
  {
  }

  lemma SameShapeKeepsInvariants(cs: seq<Customer>, ds: seq<Customer>)
    requires |ds| == |cs|
    requires forall j :: 0 <= j < |ds| ==>
               ds[j].phone == cs[j].phone && ds[j].vehicles == cs[j].vehicles && ds[j].id == cs[j].id
    ensures PhonesUnique(cs) ==> PhonesUnique(ds)
    ensures VehiclesDistinct(cs) ==> VehiclesDistinct(ds)
    ensures IdsUnique(cs) ==> IdsUnique(ds)
  {
  }

  /** Resolving a customer and then booking, as the webhook does, keeps the
      store consistent when the id for a new customer is fresh.  This holds
      for any booking draft, not only one naming the resolved customer. */
  lemma ResolveAndBookKeepsConsistent(s: Store, inc: Incoming, freshId: string, now: Timestamp,
                                      d: BookingDraft, bookingId: string, bookedAt: Timestamp)
    requires Consistent(s) && FreshCustomerId(s, freshId)
    ensures Consistent(AddBooking(FindOrCreateCustomer(s, inc, freshId, now).store,
                                  d, bookingId, bookedAt).store)
  {
    var found := FindOrCreateCustomer(s, inc, freshId, now);
    var after := AddBooking(found.store, d, bookingId, bookedAt).store;
    FindOrCreateKeepsPhonesUnique(s, inc, freshId, now);
    FindOrCreateKeepsVehiclesDistinct(s, inc, freshId, now);
    FindOrCreateKeepsIdsUnique(s, inc, freshId, now);
    FindOrCreateKeepsCounts(s, inc, freshId, now);
    AddBookingKeepsShape(found.store, d, bookingId, bookedAt);
    SameShapeKeepsInvariants(found.store.customers, after.customers);
    AddBookingKeepsCounts(found.store, d, bookingId, bookedAt);
  }

  /** After resolving and booking, the resolved customer's stored record has
      one more booking than before (one, if it was just created), its
      `lastVisit` is the booking's date, and it lists the incoming vehicle. */
  lemma ResolveAndBookCounts(s: Store, inc: Incoming, freshId: string, now: Timestamp,
                             d: BookingDraft, bookingId: string, bookedAt: Timestamp)
    requires IdsUnique(s.customers)
    requires forall i :: 0 <= i < |s.customers| ==> s.customers[i].id != freshId
    requires d.customerId == FindOrCreateCustomer(s, inc, freshId, now).value.id
    ensures var after := AddBooking(FindOrCreateCustomer(s, inc, freshId, now).store,
                                    d, bookingId, bookedAt).store;
            var k := ResolvedIndex(s, inc);
            k < |after.customers| && after.customers[k].id == d.customerId
            && after.customers[k].lastVisit == d.date
            && after.customers[k].totalBookings
               == (if k < |s.customers| then s.customers[k].totalBookings + 1 else 1)
            && (inc.vehicle != "" ==> inc.vehicle in after.customers[k].vehicles)
  {
    var found := FindOrCreateCustomer(s, inc, freshId, now);
    var k := ResolvedIndex(s, inc);
    ResolvedIndexHolds(s, inc, freshId, now);
    assert forall j :: 0 <= j < k ==> found.store.customers[j].id != d.customerId;
  }

  /** A customer just created for a non-empty phone, and then booked for, is
      the one any later submission with that phone resolves to. */
  lemma CreatedCustomerFoundByPhone(s: Store, inc: Incoming, freshId: string, now: Timestamp,
                                    d: BookingDraft, bookingId: string, bookedAt: Timestamp,
                                    later: Incoming)
    requires Resolve(s.customers, inc).None?
    requires later.phone == inc.phone && later.phone != ""
    ensures var after := AddBooking(FindOrCreateCustomer(s, inc, freshId, now).store,
                                    d, bookingId, bookedAt).store;
            |after.customers| == |s.customers| + 1
            && after.customers[|s.customers|].id == freshId
            && Resolve(after.customers, later) == Some(|s.customers|)
  {
    var n := |s.customers|;
    var found := FindOrCreateCustomer(s, inc, freshId, now);
    var after := AddBooking(found.store, d, bookingId, bookedAt).store;
    assert found.store.customers == s.customers + [found.value];
    forall j | 0 <= j < n + 1
      ensures after.customers[j].phone == found.store.customers[j].phone
      ensures after.customers[j].id == found.store.customers[j].id
    {
    }
    ResolveByPhoneAt(after.customers, later, n);
  }

  /** The first customer whose phone matches is the one resolved. */
  lemma ResolveByPhoneAt(cs: seq<Customer>, inc: Incoming, n: nat)
    requires n < |cs| && PhoneHit(cs[n], inc.phone)
    requires forall j :: 0 <= j < n ==> !PhoneHit(cs[j], inc.phone)
    ensures Resolve(cs, inc) == Some(n)
  {
  }

  /** Merging into a stored customer and then booking leaves the incoming
      vehicle on that customer. */
  lemma MergedVehicleStays(s: Store, inc: Incoming, freshId: string, now: Timestamp,
                           d: BookingDraft, bookingId: string, bookedAt: Timestamp)
    requires Resolve(s.customers, inc).Some? && inc.vehicle != ""
    ensures var after := AddBooking(FindOrCreateCustomer(s, inc, freshId, now).store,
                                    d, bookingId, bookedAt).store;
            inc.vehicle in after.customers[Resolve(s.customers, inc).value].vehicles
  {
  }
}

=== FILE: Tally.dfy ===
/** Occurrence counting and top-N ranking, as `getStats` does it for service
    names and zip codes: bump a per-key counter for each item in scan order,
    list the counters, sort them by count (largest first) and keep the first
    `n`.  Counters are kept in the order their key was first seen. */
module Tally {
  import opened Seqs
  import opened Sorting

  /** One own property of a counter object: its key and what it holds. */
  datatype Counter<V> = Counter(key: string, count: V)

  /** A numeric counter. */
  type Entry = Counter<int>

  function CountOf(e: Entry): int {
    e.count
  }

  function KeyOf(e: Entry): string {
    e.key
  }

  /** Where the counter for `k` sits, if it exists yet (the property lookup
      `counts[k]`). */
  function Slot<V>(t: seq<Counter<V>>, k: string): (r: Option<nat>)
    ensures r.Some? ==> r.value < |t| && t[r.value].key == k
    ensures r.Some? ==> forall j :: 0 <= j < r.value ==> t[j].key != k
    ensures r.None? ==> forall j :: 0 <= j < |t| ==> t[j].key != k
    decreases |t|
  {
    if |t| == 0 then None
    else if t[0].key == k then Some(0)
    else match Slot(t[1..], k)
      case None => None
      case Some(i) => Some(i + 1)
  }

  /** Reference definition: how many times `k` occurs in `items`. */
  function Occurrences(items: seq<string>, k: string): nat
    decreases |items|
  {
    if |items| == 0 then 0
    else Occurrences(items[..|items| - 1], k) + (if items[|items| - 1] == k then 1 else 0)
  }

  ghost predicate Listed(t: seq<Entry>, k: string) {
    exists i :: 0 <= i < |t| && t[i].key == k
  }

  /** One `counts[k] = (counts[k] || 0) + 1` step on a counter table with no
      inherited keys. */
  function Bump(t: seq<Entry>, k: string): seq<Entry> {
    match Slot(t, k)
    case Some(i) => t[i := Counter(k, t[i].count + 1)]
    case None => t + [Counter(k, 1)]
  }

  /** The counter table after scanning `items` from first to last. */
  function Tally(items: seq<string>): seq<Entry>
    decreases |items|
  {
    if |items| == 0 then [] else Bump(Tally(items[..|items| - 1]), items[|items| - 1])
  }

  lemma OccurrencesSnoc(items: seq<string>, x: string, k: string)
    ensures Occurrences(items + [x], k) == Occurrences(items, k) + (if x == k then 1 else 0)
  {
    assert (items + [x])[..|items|] == items;
  }

  lemma {:induction false} OccurrencesAbsent(items: seq<string>, k: string)
    requires k !in items
    ensures Occurrences(items, k) == 0
    decreases |items|
  {
    if |items| > 0 {
      var pre := items[..|items| - 1];
      assert forall y :: y in pre ==> y in items;
      OccurrencesAbsent(pre, k);
    }
  }

  /** `t` is an exact counter table for `items`: one entry per distinct item,
      holding its number of occurrences. */
  ghost predicate Counts(t: seq<Entry>, items: seq<string>) {
    DistinctBy(t, KeyOf) && Exact(t, items) && Covers(t, items)
  }

  /** Every entry holds the number of occurrences of an item of `items`. */
  ghost predicate Exact(t: seq<Entry>, items: seq<string>) {
    forall i :: 0 <= i < |t| ==> t[i].count == Occurrences(items, t[i].key) && t[i].key in items
  }

  /** Every item of `items` has an entry. */
  ghost predicate Covers(t: seq<Entry>, items: seq<string>) {
    forall k :: k in items ==> Listed(t, k)
  }

  lemma BumpAt(t: seq<Entry>, x: string, i: nat)
    requires Slot(t, x) == Some(i)
    ensures Bump(t, x) == t[i := Counter(x, t[i].count + 1)]
  {
  }

  lemma BumpNew(t: seq<Entry>, x: string)
    requires Slot(t, x) == None
    ensures Bump(t, x) == t + [Counter(x, 1)]
  {
  }

  lemma FoundDistinct(t: seq<Entry>, x: string, i: nat)
    requires DistinctBy(t, KeyOf) && i < |t| && t[i].key == x
    ensures DistinctBy(t[i := Counter(x, t[i].count + 1)], KeyOf)
  {
    var b := t[i := Counter(x, t[i].count + 1)];
    assert forall j :: 0 <= j < |b| ==> b[j].key == t[j].key;
  }

  lemma FoundExact(t: seq<Entry>, pre: seq<string>, x: string, i: nat)
    requires Exact(t, pre) && DistinctBy(t, KeyOf) && i < |t| && t[i].key == x
    ensures Exact(t[i := Counter(x, t[i].count + 1)], pre + [x])
  {
    var b := t[i := Counter(x, t[i].count + 1)];
    forall j | 0 <= j < |b|
      ensures b[j].count == Occurrences(pre + [x], b[j].key) && b[j].key in pre + [x]
    {
      OccurrencesSnoc(pre, x, b[j].key);
      if j != i {
        assert b[j] == t[j];
        var p :| 0 <= p < |pre| && pre[p] == t[j].key;
        assert (pre + [x])[p] == b[j].key;
      } else {
        assert (pre + [x])[|pre|] == b[j].key;
      }
    }
  }

  lemma FoundCovers(t: seq<Entry>, pre: seq<string>, x: string, i: nat)
    requires Covers(t, pre) && i < |t| && t[i].key == x
    ensures Covers(t[i := Counter(x, t[i].count + 1)], pre + [x])
  {
    var b := t[i := Counter(x, t[i].count + 1)];
    forall k | k in pre + [x]
      ensures Listed(b, k)
    {
      if k != x {
        assert k in pre;
        var j :| 0 <= j < |t| && t[j].key == k;
        assert b[j].key == k;
      } else {
        assert b[i].key == k;
      }
    }
  }

  /** Bumping a key already listed keeps the table exact. */
  lemma BumpFound(t: seq<Entry>, pre: seq<string>, x: string, i: nat)
    requires Counts(t, pre)
    requires Slot(t, x) == Some(i)
    ensures Counts(Bump(t, x), pre + [x])
  {
    BumpAt(t, x, i);
    FoundDistinct(t, x, i);
    FoundExact(t, pre, x, i);
    FoundCovers(t, pre, x, i);
  }

  lemma FreshDistinct(t: seq<Entry>, x: string)
    requires DistinctBy(t, KeyOf) && forall j :: 0 <= j < |t| ==> t[j].key != x
    ensures DistinctBy(t + [Counter(x, 1)], KeyOf)
  {
  }

  lemma FreshExact(t: seq<Entry>, pre: seq<string>, x: string)
    requires Exact(t, pre) && x !in pre
    ensures Exact(t + [Counter(x, 1)], pre + [x])
  {
    var b := t + [Counter(x, 1)];
    OccurrencesAbsent(pre, x);
    forall j | 0 <= j < |b|
      ensures b[j].count == Occurrences(pre + [x], b[j].key) && b[j].key in pre + [x]
    {
      OccurrencesSnoc(pre, x, b[j].key);
    }
  }

  lemma FreshCovers(t: seq<Entry>, pre: seq<string>, x: string)
    requires Covers(t, pre)
    ensures Covers(t + [Counter(x, 1)], pre + [x])
  {
    var b := t + [Counter(x, 1)];
    forall k | k in pre + [x]
      ensures Listed(b, k)
    {
      if k != x {
        var j :| 0 <= j < |t| && t[j].key == k;
        assert b[j].key == k;
      } else {
        assert b[|t|].key == k;
      }
    }
  }

  /** Bumping a new key appends it with count 1 and keeps the table exact. */
  lemma BumpFresh(t: seq<Entry>, pre: seq<string>, x: string)
    requires Counts(t, pre)
    requires Slot(t, x) == None
    ensures Counts(Bump(t, x), pre + [x])
  {
    BumpNew(t, x);
    assert forall j :: 0 <= j < |t| ==> t[j].key != x;
    assert x !in pre;
    FreshDistinct(t, x);
    FreshExact(t, pre, x);
    FreshCovers(t, pre, x);
  }

  lemma BumpCounts(t: seq<Entry>, pre: seq<string>, x: string)
    requires Counts(t, pre)
    ensures Counts(Bump(t, x), pre + [x])
  {
    var found := Slot(t, x);
    if found.Some? {
      BumpFound(t, pre, x, found.value);
    } else {
      BumpFresh(t, pre, x);
    }
  }

  /** Counting a concatenation counts each part. */
  lemma {:induction false} OccurrencesConcat(a: seq<string>, b: seq<string>, k: string)
    ensures Occurrences(a + b, k) == Occurrences(a, k) + Occurrences(b, k)
    decreases |b|
  {
    if |b| == 0 {
      assert a + b == a;
    } else {
      var pre, x := b[..|b| - 1], b[|b| - 1];
      assert b == pre + [x];
      assert a + b == (a + pre) + [x];
      OccurrencesConcat(a, pre, k);
      OccurrencesSnoc(a + pre, x, k);
      OccurrencesSnoc(pre, x, k);
    }
  }

  /** In a sequence without repeats an item occurs once or not at all. */
  lemma {:induction false} OccurrencesOnce(items: seq<string>, k: string)
    requires NoDup(items)
    ensures Occurrences(items, k) == if k in items then 1 else 0
    decreases |items|
  {
    if |items| > 0 {
      var pre, x := items[..|items| - 1], items[|items| - 1];
      assert items == pre + [x];
      assert NoDup(pre);
      OccurrencesOnce(pre, k);
      if x == k {
        assert k !in pre;
      }
    }
  }

  /** The counter table built by scanning counts exactly. */
  lemma {:induction false} TallyCounts(items: seq<string>)
    ensures Counts(Tally(items), items)
    decreases |items|
  {
    if |items| > 0 {
      var pre, x := items[..|items| - 1], items[|items| - 1];
      assert items == pre + [x];
      TallyCounts(pre);
      BumpCounts(Tally(pre), pre, x);
    }
  }

  /** The `n` counters with the highest counts, largest first. */
  function Top(items: seq<string>, n: nat): seq<Entry> {
    Take(SortDesc(Tally(items), CountOf), n)
  }

  /** Sorting a counter table by count leaves it an exact counter table. */
  lemma SortKeepsCounts(t: seq<Entry>, items: seq<string>)
    requires Counts(t, items)
    ensures Counts(SortDesc(t, CountOf), items)
  {
    var sorted := SortDesc(t, CountOf);
    SortKeepsDistinct(t, CountOf, KeyOf);
    forall i | 0 <= i < |sorted|
      ensures sorted[i].count == Occurrences(items, sorted[i].key) && sorted[i].key in items
    {
      assert sorted[i] in multiset(t);
    }
    forall k | k in items
      ensures Listed(sorted, k)
    {
      var j :| 0 <= j < |t| && t[j].key == k;
      assert t[j] in multiset(sorted);
    }
  }

  /** `Top` keeps at most `n` entries, ordered by non-increasing count, each
      holding the true count of a distinct item, and every item it leaves
      out is counted no higher than anything it keeps. */
  lemma TopIsRanking(items: seq<string>, n: nat)
    ensures |Top(items, n)| <= n
    ensures SortedDesc(Top(items, n), CountOf)
    ensures DistinctBy(Top(items, n), KeyOf)
    ensures forall i :: 0 <= i < |Top(items, n)| ==>
              Top(items, n)[i].count == Occurrences(items, Top(items, n)[i].key)
              && Top(items, n)[i].key in items
    ensures forall k :: k in items && !Listed(Top(items, n), k) ==>
              |Top(items, n)| == n
              && forall i :: 0 <= i < n ==> Occurrences(items, k) <= Top(items, n)[i].count
  {
    var sorted := SortDesc(Tally(items), CountOf);
    var r := Top(items, n);
    TallyCounts(items);
    SortKeepsCounts(Tally(items), items);
    assert forall i :: 0 <= i < |r| ==> r[i] == sorted[i];
    forall k | k in items && !Listed(r, k)
      ensures |r| == n
      ensures forall i :: 0 <= i < n ==> Occurrences(items, k) <= r[i].count
    {
      var p :| 0 <= p < |sorted| && sorted[p].key == k;
      if p < |r| {
        assert false;
      }
    }
  }

  // ---------------------------------------------------------------------
  // The counters as written: a plain `{}` object

  /** The property names every plain object inherits from `Object.prototype`. */
  const Inherited: seq<string> := [
    "constructor", "hasOwnProperty", "isPrototypeOf", "propertyIsEnumerable",
    "toLocaleString", "toString", "valueOf", "__defineGetter__",
    "__defineSetter__", "__lookupGetter__", "__lookupSetter__", "__proto__"]

  /** What one own property of the counter object holds: a number, or the
      string that `+ 1` makes of an inherited function, which is no count. */
  datatype JsCount = Num(n: int) | NotANumber

  type JsEntry = Counter<JsCount>

  /** `counts[k] = (counts[k] || 0) + 1` on an object created as `{}`.  An own
      property is incremented (a string stays a string under `+ 1`).  Without
      one, the lookup falls through to `Object.prototype`: an inherited
      method is truthy, so the new own value is a string; `__proto__` yields
      the prototype itself, and assigning a string to it is ignored. */
  function JsBump(t: seq<JsEntry>, k: string): seq<JsEntry> {
    match Slot(t, k)
    case Some(i) =>
      t[i := Counter(k, match t[i].count case Num(n) => Num(n + 1) case NotANumber => NotANumber)]
    case None =>
      if k == "__proto__" then t
      else if k in Inherited then t + [Counter(k, NotANumber)]
      else t + [Counter(k, Num(1))]
  }

  /** `Object.entries` of the counter object after scanning `items`. */
  function JsTally(items: seq<string>): seq<JsEntry>
    decreases |items|
  {
    if |items| == 0 then [] else JsBump(JsTally(items[..|items| - 1]), items[|items| - 1])
  }

  /** A counter table read as the object's own numeric properties. */
  function Lift(t: seq<Entry>): (r: seq<JsEntry>)
    ensures |r| == |t|
    ensures forall i :: 0 <= i < |t| ==> r[i] == Counter(t[i].key, Num(t[i].count))
  {
    seq(|t|, i requires 0 <= i < |t| => Counter(t[i].key, Num(t[i].count)))
  }

  lemma JsBumpAgrees(t: seq<Entry>, k: string)
    requires k !in Inherited
    ensures JsBump(Lift(t), k) == Lift(Bump(t, k))
  {
    var l := Lift(t);
    match Slot(t, k)
    case Some(i) =>
      assert Slot(l, k) == Some(i);
    case None =>
      assert Slot(l, k) == None;
  }


  /** On items that are not inherited property names the object-based
      counters agree with the exact counter table. */
  lemma {:induction false} JsTallyAgrees(items: seq<string>)
    requires forall i :: 0 <= i < |items| ==> items[i] !in Inherited
    ensures JsTally(items) == Lift(Tally(items))
    decreases |items|
  {
    if |items| > 0 {
      JsTallyAgrees(items[..|items| - 1]);
      JsBumpAgrees(Tally(items[..|items| - 1]), items[|items| - 1]);
    }
  }

  /** A single `constructor` is not counted as 1, and `__proto__` is not
      counted at all, where the exact table counts both. */
  lemma JsTallyMiscounts()
    ensures JsTally(["constructor"]) == [Counter("constructor", NotANumber)]
    ensures Tally(["constructor"]) == [Counter("constructor", 1)]
    ensures JsTally(["__proto__"]) == []
    ensures Tally(["__proto__"]) == [Counter("__proto__", 1)]
  {
    assert "constructor" == Inherited[0];
  }
}

=== FILE: Text.dfy ===
/** The few string operations the core relies on: the `\d` / `\s` character
    classes of JavaScript regular expressions, `toLowerCase`, the global
    `replace` calls used to derive checkbox key variants, and `includes`. */
module Text {
  import opened Seqs

  /** `\d` in a JavaScript regular expression without the `u` flag. */
  predicate IsDigit(c: char) {
    '0' <= c <= '9'
  }

  predicate AllDigits(s: string) {
    forall i :: 0 <= i < |s| ==> IsDigit(s[i])
  }

  /** What `s.replace(/\D/g, '')` leaves: the digits of `s`, in order. */
  function Digits(s: string): (d: string)
    ensures AllDigits(d)
    ensures |d| <= |s|
  {
    Filter(s, IsDigit)
  }

  /** A string made only of digits is its own digit string. */
  lemma DigitsOfDigits(s: string)
    requires AllDigits(s)
    ensures Digits(s) == s
  {
    FilterKeepsAll(s, IsDigit);
  }

  /** `\s` in a JavaScript regular expression: the ECMAScript WhiteSpace and
      LineTerminator code points. */
  predicate IsSpace(c: char) {
    || c == ' ' || c == '\t' || c == '\n' || c == '\r'
    || c == '\U{B}' || c == '\U{C}' || c == '\U{A0}' || c == '\U{1680}'
    || ('\U{2000}' <= c <= '\U{200A}')
    || c == '\U{2028}' || c == '\U{2029}' || c == '\U{202F}' || c == '\U{205F}'
    || c == '\U{3000}' || c == '\U{FEFF}'
  }

  /** Lower-casing of one character, restricted to the ASCII letters. */
  function LowerChar(c: char): (r: char)
    ensures !('A' <= r <= 'Z')
    ensures 'a' <= c <= 'z' || !('A' <= c <= 'Z') ==> r == c
  {
    if 'A' <= c <= 'Z' then (c as int + 32) as char else c
  }

  /** `toLowerCase` on the ASCII letters; every other character is kept. */
  function Lower(s: string): (r: string)
    ensures |r| == |s|
    ensures forall i :: 0 <= i < |s| ==> r[i] == LowerChar(s[i])
  {
    seq(|s|, i requires 0 <= i < |s| => LowerChar(s[i]))
  }

  /** `s.replace(/<from>/g, to)` for a one-character pattern. */
  function ReplaceChar(s: string, from: char, to: char): (r: string)
    ensures |r| == |s|
    ensures forall i :: 0 <= i < |s| ==> r[i] == (if s[i] == from then to else s[i])
  {
    seq(|s|, i requires 0 <= i < |s| => if s[i] == from then to else s[i])
  }

  /** The leading run of whitespace removed. */
  function DropSpaces(s: string): (r: string)
    ensures |r| <= |s|
    ensures r == s[|s| - |r|..]
    ensures |r| > 0 ==> !IsSpace(r[0])
    ensures forall i :: 0 <= i < |s| - |r| ==> IsSpace(s[i])
  {
    if |s| > 0 && IsSpace(s[0]) then DropSpaces(s[1..]) else s
  }

  /** `s.replace(/\s+/g, sep)`: every maximal run of whitespace becomes one `sep`. */
  function CollapseSpaces(s: string, sep: char): (r: string)
    ensures |r| <= |s|
    decreases |s|
  {
    if |s| == 0 then ""
    else if IsSpace(s[0]) then [sep] + CollapseSpaces(DropSpaces(s[1..]), sep)
    else [s[0]] + CollapseSpaces(s[1..], sep)
  }

  /** `s.includes(t)`: `t` occurs as a contiguous block of `s`. */
  predicate Contains(s: string, t: string)
    decreases |s|
  {
    t <= s || (|s| > 0 && Contains(s[1..], t))
  }

  /** Every string includes the empty string. */
  lemma ContainsEmpty(s: string)
    ensures Contains(s, "")
  {
  }

  /** Text without whitespace is left as it is. */
  lemma {:induction false} CollapseNoSpaces(s: string, sep: char)
    requires forall i :: 0 <= i < |s| ==> !IsSpace(s[i])
    ensures CollapseSpaces(s, sep) == s
    decreases |s|
  {
    if |s| > 0 {
      CollapseNoSpaces(s[1..], sep);
      assert s == [s[0]] + s[1..];
    }
  }

  /** Two words around one space are joined by `sep`. */
  lemma {:induction false} SingleSpaceCollapses(a: string, b: string, sep: char)
    requires forall i :: 0 <= i < |a| ==> !IsSpace(a[i])
    requires forall i :: 0 <= i < |b| ==> !IsSpace(b[i])
    requires |b| > 0
    ensures CollapseSpaces(a + " " + b, sep) == a + [sep] + b
    decreases |a|
  {
    if |a| == 0 {
      assert (a + " " + b)[1..] == b;
      assert DropSpaces(b) == b;
      CollapseNoSpaces(b, sep);
    } else {
      assert (a + " " + b)[1..] == a[1..] + " " + b;
      SingleSpaceCollapses(a[1..], b, sep);
      assert a + [sep] + b == [a[0]] + (a[1..] + [sep] + b);
    }
  }
}

=== FILE: Webhook.dfy ===
/** The webhook of `app/api/webhook/route.ts` once the request body has been
    parsed: field-name reconciliation over a string-keyed payload, phone
    normalisation, service extraction, and the customer resolution and
    booking append that follow. */
module Webhook {
  import opened Seqs
  import opened Text
  import opened Records
  import opened Store

  /** A parsed submission: form field name to submitted text. */
  type Payload = map<string, string>

  /** JavaScript truthiness of `data[k]` for a text value: present and non-empty. */
  predicate Truthy(data: Payload, k: string) {
    k in data && data[k] != ""
  }

  /** `data[k]`, with a missing key read as the (falsy) empty string. */
  function Get(data: Payload, k: string): string {
    if k in data then data[k] else ""
  }

  /** `data[k1] || data[k2] || ... || ''`: the first truthy value among the
      probed keys, or the empty string. */
  function FirstTruthy(data: Payload, keys: seq<string>): (r: string)
    ensures r == "" <==> forall i :: 0 <= i < |keys| ==> !Truthy(data, keys[i])
    ensures r != "" ==> exists i :: (0 <= i < |keys| && Truthy(data, keys[i]) && data[keys[i]] == r
              && forall j :: 0 <= j < i ==> !Truthy(data, keys[j]))
    decreases |keys|
  {
    if |keys| == 0 then ""
    else if Truthy(data, keys[0]) then data[keys[0]]
    else FirstTruthy(data, keys[1..])
  }

  /** Whichever single key of a probe list carries the value, the canonical
      field gets that value. */
  lemma {:induction false} SoleKeyDecides(data: Payload, keys: seq<string>, k: string)
    requires k in keys && Truthy(data, k)
    requires forall i :: 0 <= i < |keys| && keys[i] != k ==> !Truthy(data, keys[i])
    ensures FirstTruthy(data, keys) == data[k]
    decreases |keys|
  {
    if keys[0] != k {
      SoleKeyDecides(data, keys[1..], k);
    }
  }

  const NameKeys: seq<string> := ["name", "Name", "full-name", "fullName", "customer-name"]
  const PhoneKeys: seq<string> :=
    ["phone", "Phone", "phone-number", "phoneNumber", "telephone", "Phone number", "Phone Number"]
  const EmailKeys: seq<string> := ["email", "Email", "e-mail"]
  const ZipKeys: seq<string> := ["zipCode", "zip-code", "zip", "location", "Location", "Location 2"]
  const VehicleKeys: seq<string> := ["vehicle", "Vehicle", "vehicle-type", "vehicleType", "car"]
  const ServiceKeys: seq<string> := ["service", "Service", "service-type", "serviceType"]

  // ---------------------------------------------------------------------
  // Phone

  function Min(a: int, b: int): int {
    if a <= b then a else b
  }

  /** `normalizePhone`: the digits of the input, cut down to the last ten. */
  function NormalizePhone(phone: string): (r: string)
    ensures AllDigits(r) && |r| <= 10
    ensures phone == "" ==> r == ""
    ensures |r| == Min(10, |Digits(phone)|)
    ensures r == Digits(phone)[|Digits(phone)| - |r|..]
  {
    if phone == "" then ""
    else
      var digits := Digits(phone);
      if |digits| >= 10 then digits[|digits| - 10..] else digits
  }

  /** Normalising a normalised phone changes nothing. */
  lemma NormalizePhoneIdempotent(phone: string)
    ensures NormalizePhone(NormalizePhone(phone)) == NormalizePhone(phone)
  {
    var r := NormalizePhone(phone);
    DigitsOfDigits(r);
  }

  // ---------------------------------------------------------------------
  // Services

  /** One checkbox of the form builder: its field key and the service's
      display name. */
  datatype ServiceBox = ServiceBox(key: string, display: string)

  /** `SERVICE_FIELD_MAP`, in definition order (which is also the order in
      which `Object.entries` lists these non-numeric keys). */
  const Catalogue: seq<ServiceBox> := [
    ServiceBox("complete-exterior-package", "Complete Exterior Package"),
    ServiceBox("premium-interior-package", "Premium Interior Package"),
    ServiceBox("complete-interior-package", "Complete Interior Package"),
    ServiceBox("premium-wash-package", "Premium Wash Package"),
    ServiceBox("1-step-paint-correction", "1 Step Paint Correction"),
    ServiceBox("aov-optimization", "AOV Optimization"),
    ServiceBox("graphene-ceramic-coating", "Graphene Ceramic Coating"),
    ServiceBox("mini-detail", "Mini Detail"),
    ServiceBox("maintenance-wash-wipe-package", "Maintenance Wash & Wipe Package"),
    ServiceBox("extra-add-on-services", "Extra Add-On Services"),
    ServiceBox("2-step-paint-correction", "2 Step Paint Correction"),
    ServiceBox("adams-graphene-ceramic-coating", "Adams Graphene Ceramic Coating")
  ]

  const GeneralInquiry: string := "General Inquiry"

  function DisplayOf(b: ServiceBox): string {
    b.display
  }

  /** No two catalogue entries share a display name. */
  lemma CatalogueNamesDistinct()
    ensures DistinctBy(Catalogue, DisplayOf)
  {
  }

  /** The five spellings under which a checkbox may arrive. */
  function Variants(b: ServiceBox): (vs: seq<string>)
    ensures |vs| == 5 && vs[0] == b.key
  {
    [ b.key,
      ReplaceChar(b.key, '-', '_'),
      ReplaceChar(b.key, '-', ' '),
      CollapseSpaces(Lower(b.display), '-'),
      CollapseSpaces(Lower(b.display), '_') ]
  }

  /** The "Mini Detail" checkbox is recognised under its key, the key with
      underscores or spaces for hyphens, and the lower-cased display name
      with hyphens or underscores for its spaces. */
  lemma MiniDetailSpellings()
    ensures Variants(ServiceBox("mini-detail", "Mini Detail"))
         == ["mini-detail", "mini_detail", "mini detail", "mini-detail", "mini_detail"]
  {
    MiniDetailKeyForms();
    MiniDetailNameForms();
  }

  lemma MiniDetailKeyForms()
    ensures ReplaceChar("mini-detail", '-', '_') == "mini_detail"
    ensures ReplaceChar("mini-detail", '-', ' ') == "mini detail"
  {
  }

  lemma MiniDetailNameForms()
    ensures CollapseSpaces(Lower("Mini Detail"), '-') == "mini-detail"
    ensures CollapseSpaces(Lower("Mini Detail"), '_') == "mini_detail"
  {
    assert Lower("Mini Detail") == "mini detail" == "mini" + " " + "detail";
    SingleSpaceCollapses("mini", "detail", '-');
    SingleSpaceCollapses("mini", "detail", '_');
    assert "mini" + ['-'] + "detail" == "mini-detail";
    assert "mini" + ['_'] + "detail" == "mini_detail";
  }

  /** A checkbox value counts when present, non-empty and not the text "false". */
  predicate Checked(data: Payload, k: string) {
    k in data && data[k] != "" && data[k] != "false"
  }

  /** Some spelling of the checkbox is checked (the inner loop, which stops
      at the first one). */
  predicate Ticked(data: Payload, b: ServiceBox) {
    exists i :: 0 <= i < |Variants(b)| && Checked(data, Variants(b)[i])
  }

  function TickedBy(data: Payload): ServiceBox -> bool {
    (b: ServiceBox) => Ticked(data, b)
  }

  /** The outer loop over a catalogue: each entry satisfying `on` contributes
      its display name once, in catalogue order. */
  function Contributed(cat: seq<ServiceBox>, on: ServiceBox -> bool): seq<string>
    decreases |cat|
  {
    if |cat| == 0 then []
    else (if on(cat[0]) then [cat[0].display] else []) + Contributed(cat[1..], on)
  }

  /** A name is contributed exactly when some entry carrying it is on; each
      entry contributes at most once. */
  lemma {:induction false} ContributedMembers(cat: seq<ServiceBox>, on: ServiceBox -> bool)
    ensures |Contributed(cat, on)| <= |cat|
    ensures forall d :: d in Contributed(cat, on) <==>
              exists i :: 0 <= i < |cat| && cat[i].display == d && on(cat[i])
    decreases |cat|
  {
    if |cat| > 0 {
      var rest := Contributed(cat[1..], on);
      ContributedMembers(cat[1..], on);
      forall d
        ensures d in Contributed(cat, on) <==>
                exists i :: 0 <= i < |cat| && cat[i].display == d && on(cat[i])
      {
        if d in rest {
          var i :| 0 <= i < |cat[1..]| && cat[1..][i].display == d && on(cat[1..][i]);
          assert cat[i + 1] == cat[1..][i];
        }
        if exists i :: 0 <= i < |cat| && cat[i].display == d && on(cat[i]) {
          var i :| 0 <= i < |cat| && cat[i].display == d && on(cat[i]);
          if i > 0 {
            assert cat[1..][i - 1] == cat[i];
          }
        }
      }
    }
  }

  /** The display names of a list of entries, position by position. */
  function Names(cat: seq<ServiceBox>): (r: seq<string>)
    ensures |r| == |cat| && forall i :: 0 <= i < |cat| ==> r[i] == cat[i].display
    decreases |cat|
  {
    if |cat| == 0 then [] else [cat[0].display] + Names(cat[1..])
  }

  /** Contributed names are those of the catalogue entries that are on, in
      catalogue order. */
  lemma {:induction false} ContributedInOrder(cat: seq<ServiceBox>, on: ServiceBox -> bool)
    ensures Contributed(cat, on) == Names(Filter(cat, on))
    decreases |cat|
  {
    if |cat| > 0 {
      ContributedInOrder(cat[1..], on);
      var f := Filter(cat[1..], on);
      if on(cat[0]) {
        assert Filter(cat, on) == [cat[0]] + f;
        assert ([cat[0]] + f)[1..] == f;
      } else {
        assert Filter(cat, on) == f;
      }
    }
  }

  /** Nothing is contributed when no entry is on. */
  lemma {:induction false} ContributedNothing(cat: seq<ServiceBox>, on: ServiceBox -> bool)
    requires forall i :: 0 <= i < |cat| ==> !on(cat[i])
    ensures Contributed(cat, on) == []
    decreases |cat|
  {
    if |cat| > 0 {
      ContributedNothing(cat[1..], on);
    }
  }

  /** With distinct display names, no name is contributed twice. */
  lemma {:induction false} ContributedNoDup(cat: seq<ServiceBox>, on: ServiceBox -> bool)
    requires DistinctBy(cat, DisplayOf)
    ensures NoDup(Contributed(cat, on))
    decreases |cat|
  {
    if |cat| > 0 {
      var rest := Contributed(cat[1..], on);
      assert DistinctBy(cat[1..], DisplayOf);
      ContributedNoDup(cat[1..], on);
      if on(cat[0]) {
        ContributedMembers(cat[1..], on);
        assert cat[0].display !in rest;
        assert Contributed(cat, on) == [cat[0].display] + rest;
      }
    }
  }

  /** `data.service || data.Service || data['service-type'] || data.serviceType`. */
  function ServiceField(data: Payload): string {
    FirstTruthy(data, ServiceKeys)
  }

  /** `extractServices` over a given catalogue. */
  function ExtractFrom(data: Payload, cat: seq<ServiceBox>): seq<string> {
    var boxes := Contributed(cat, TickedBy(data));
    var field := ServiceField(data);
    var services := if field != "" && field !in boxes then boxes + [field] else boxes;
    if |services| > 0 then services else [GeneralInquiry]
  }

  /** `extractServices`. */
  function ExtractServices(data: Payload): seq<string> {
    ExtractFrom(data, Catalogue)
  }

  ghost predicate NoneTicked(data: Payload, cat: seq<ServiceBox>) {
    forall i :: 0 <= i < |cat| ==> !Ticked(data, cat[i])
  }

  /** Service extraction is never empty and contributes every ticked
      catalogue name and the single service field. */
  lemma ExtractFromIncludes(data: Payload, cat: seq<ServiceBox>)
    ensures |ExtractFrom(data, cat)| > 0
    ensures forall i :: 0 <= i < |cat| && Ticked(data, cat[i]) ==> cat[i].display in ExtractFrom(data, cat)
    ensures ServiceField(data) != "" ==> ServiceField(data) in ExtractFrom(data, cat)
  {
    ContributedMembers(cat, TickedBy(data));
    var boxes := Contributed(cat, TickedBy(data));
    if |boxes| > 0 {
      assert boxes[0] in boxes;
    }
  }

  /** Service extraction yields nothing but ticked catalogue names, the
      service field and the fallback, and falls back to "General Inquiry"
      when nothing is ticked or given. */
  lemma ExtractFromOnly(data: Payload, cat: seq<ServiceBox>)
    ensures forall x :: x in ExtractFrom(data, cat) ==>
              x == ServiceField(data) || x == GeneralInquiry
              || exists i :: 0 <= i < |cat| && Ticked(data, cat[i]) && cat[i].display == x
    ensures NoneTicked(data, cat) && ServiceField(data) == "" ==> ExtractFrom(data, cat) == [GeneralInquiry]
  {
    ContributedMembers(cat, TickedBy(data));
    if NoneTicked(data, cat) {
      ContributedNothing(cat, TickedBy(data));
    }
  }

  /** The result never lists a service twice when display names are distinct. */
  lemma ExtractFromNoDup(data: Payload, cat: seq<ServiceBox>)
    requires DistinctBy(cat, DisplayOf)
    ensures NoDup(ExtractFrom(data, cat))
  {
    ContributedNoDup(cat, TickedBy(data));
  }

  /** The extracted services are never empty and never repeat. */
  lemma ExtractServicesNonEmptyNoDup(data: Payload)
    ensures |ExtractServices(data)| > 0
    ensures NoDup(ExtractServices(data))
  {
    CatalogueNamesDistinct();
    ExtractFromNoDup(data, Catalogue);
    ExtractFromIncludes(data, Catalogue);
  }

  /** No catalogue entry is called "General Inquiry". */
  lemma SentinelNotInCatalogue()
    ensures forall i :: 0 <= i < |Catalogue| ==> Catalogue[i].display != GeneralInquiry
  {
  }

  /** Over any catalogue without the sentinel name, the result is the single
      "General Inquiry" exactly when no checkbox is ticked and the service
      field is empty or is itself "General Inquiry". */
  lemma ExtractFromFallback(data: Payload, cat: seq<ServiceBox>)
    requires forall i :: 0 <= i < |cat| ==> cat[i].display != GeneralInquiry
    ensures ExtractFrom(data, cat) == [GeneralInquiry] <==>
              NoneTicked(data, cat) && (ServiceField(data) == "" || ServiceField(data) == GeneralInquiry)
  {
    var boxes := Contributed(cat, TickedBy(data));
    ContributedMembers(cat, TickedBy(data));
    assert GeneralInquiry !in boxes;
    if !NoneTicked(data, cat) {
      var i :| 0 <= i < |cat| && Ticked(data, cat[i]);
      assert cat[i].display in boxes;
    } else {
      ContributedNothing(cat, TickedBy(data));
    }
  }

  /** `extractServices` returns the single "General Inquiry" exactly when no
      checkbox is ticked and the service field is empty or is itself
      "General Inquiry". */
  lemma ExtractServicesFallback(data: Payload)
    ensures ExtractServices(data) == [GeneralInquiry] <==>
              NoneTicked(data, Catalogue) && (ServiceField(data) == "" || ServiceField(data) == GeneralInquiry)
  {
    SentinelNotInCatalogue();
    ExtractFromFallback(data, Catalogue);
  }

  // ---------------------------------------------------------------------
  // Name and the normalised field set

  function IsText(s: string): bool {
    s != ""
  }

  /** `parts.join(sep)`. */
  function Join(parts: seq<string>, sep: string): string
    decreases |parts|
  {
    if |parts| == 0 then ""
    else if |parts| == 1 then parts[0]
    else parts[0] + sep + Join(parts[1..], sep)
  }

  /** `[data['first-name'], data['last-name']].filter(Boolean).join(' ')`. */
  function JoinedName(data: Payload): string {
    Join(Filter([Get(data, "first-name"), Get(data, "last-name")], IsText), " ")
  }

  /** The submitted name: the first truthy name key, else the non-empty first
      and last names joined by a space, else "Unknown". */
  function NormalizedName(data: Payload): (r: string)
    ensures r != ""
  {
    var probed := FirstTruthy(data, NameKeys);
    if probed != "" then probed
    else
      var joined := JoinedName(data);
      if joined != "" then joined else "Unknown"
  }

  /** The name in terms of the raw payload: a truthy name key wins; then the
      first and last names, whichever are non-empty, space-separated;
      "Unknown" only when all of them are missing or empty. */
  lemma NormalizedNameCases(data: Payload)
    ensures FirstTruthy(data, NameKeys) != "" ==>
              NormalizedName(data) == FirstTruthy(data, NameKeys)
    ensures FirstTruthy(data, NameKeys) == "" ==>
              var first, last := Get(data, "first-name"), Get(data, "last-name");
              NormalizedName(data) == (if first != "" && last != "" then first + " " + last
                                       else if first != "" then first
                                       else if last != "" then last
                                       else "Unknown")
  {
    var first, last := Get(data, "first-name"), Get(data, "last-name");
    var parts := Filter([first, last], IsText);
    assert [first, last][1..] == [last];
    assert [last][1..] == [];
    assert Filter([last], IsText) == (if last != "" then [last] else []) + Filter([], IsText);
    assert parts == (if first != "" then [first] else []) + Filter([last], IsText);
    if first != "" && last != "" {
      assert parts == [first, last];
      assert Join(parts, " ") == first + " " + Join([last], " ");
    } else if first != "" {
      assert parts == [first];
    } else if last != "" {
      assert parts == [last];
    } else {
      assert parts == [];
    }
  }

  /** The canonical fields of a submission (lines 85-102 of the route). */
  datatype Fields = Fields(name: string, phone: string, email: string, zipCode: string,
                           vehicle: string, services: seq<string>)

  function Normalize(data: Payload): (r: Fields)
    ensures r.name != ""
    ensures AllDigits(r.phone) && |r.phone| <= 10
    ensures |r.services| > 0 && NoDup(r.services)
  {
    assert |ExtractServices(data)| > 0 && NoDup(ExtractServices(data)) by {
      ExtractServicesNonEmptyNoDup(data);
    }
    Fields(NormalizedName(data),
           NormalizePhone(FirstTruthy(data, PhoneKeys)),
           FirstTruthy(data, EmailKeys),
           FirstTruthy(data, ZipKeys),
           FirstTruthy(data, VehicleKeys),
           ExtractServices(data))
  }

  /** `k` is the only spelling in `keys` that carries a truthy value. */
  predicate SoleTruthy(data: Payload, keys: seq<string>, k: string) {
    && k in keys && Truthy(data, k)
    && forall i :: 0 <= i < |keys| && keys[i] != k ==> !Truthy(data, keys[i])
  }

  /** Whichever spelling a submission uses for phone, email, zip code or
      vehicle, the canonical field gets its value (the phone normalised). */
  lemma NormalizeSoleKey(data: Payload, k: string)
    ensures SoleTruthy(data, PhoneKeys, k) ==> Normalize(data).phone == NormalizePhone(data[k])
    ensures SoleTruthy(data, EmailKeys, k) ==> Normalize(data).email == data[k]
    ensures SoleTruthy(data, ZipKeys, k) ==> Normalize(data).zipCode == data[k]
    ensures SoleTruthy(data, VehicleKeys, k) ==> Normalize(data).vehicle == data[k]
  {
    if SoleTruthy(data, PhoneKeys, k) { SoleKeyDecides(data, PhoneKeys, k); }
    if SoleTruthy(data, EmailKeys, k) { SoleKeyDecides(data, EmailKeys, k); }
    if SoleTruthy(data, ZipKeys, k) { SoleKeyDecides(data, ZipKeys, k); }
    if SoleTruthy(data, VehicleKeys, k) { SoleKeyDecides(data, VehicleKeys, k); }
  }

  /** A canonical field is empty exactly when no spelling of it is truthy
      (the phone is empty at least then; digit-free text also empties it). */
  lemma NormalizeAbsent(data: Payload)
    ensures (forall i :: 0 <= i < |PhoneKeys| ==> !Truthy(data, PhoneKeys[i])) ==> Normalize(data).phone == ""
    ensures Normalize(data).email == "" <==> forall i :: 0 <= i < |EmailKeys| ==> !Truthy(data, EmailKeys[i])
    ensures Normalize(data).zipCode == "" <==> forall i :: 0 <= i < |ZipKeys| ==> !Truthy(data, ZipKeys[i])
    ensures Normalize(data).vehicle == "" <==> forall i :: 0 <= i < |VehicleKeys| ==> !Truthy(data, VehicleKeys[i])
  {
  }

  function IncomingOf(f: Fields): Incoming {
    Incoming(f.name, f.phone, f.email, f.zipCode, f.vehicle)
  }

  // ---------------------------------------------------------------------
  // One webhook delivery

  /** What a delivery leaves behind: the next store, and the ids the
      response acknowledges together with the booking itself. */
  datatype Receipt = Receipt(store: Store, customerId: string, booking: Booking)

  /** The booking the route builds for a resolved customer: a snapshot of
      the incoming fields, not of the stored customer. */
  function WebhookBooking(f: Fields, customerId: string, now: Timestamp): BookingDraft {
    BookingDraft(customerId, f.name, f.phone, f.vehicle, f.zipCode, f.services, now,
                 None, None, Pending, None)
  }

  /** The store calls of `POST` for a normalised field set: resolve the
      customer, then append the booking.  `freshId` (the id a new customer
      gets) and `bookingId` stand for the ids the source generates, `now` for its clock. */
  function Deliver(s: Store, f: Fields, freshId: string, bookingId: string, now: Timestamp)
    : (r: Receipt)
    ensures r.booking.status == Pending
    ensures r.booking.customerId == r.customerId
    ensures r.booking.customerName == f.name && r.booking.phone == f.phone
    ensures r.booking.vehicle == f.vehicle && r.booking.zipCode == f.zipCode
    ensures r.booking.services == f.services
    ensures r.booking.id == bookingId && r.booking.date == now && r.booking.createdAt == now
    ensures r.store.bookings == s.bookings + [r.booking]
    ensures Resolve(s.customers, IncomingOf(f)).Some? ==>
              r.customerId == s.customers[Resolve(s.customers, IncomingOf(f)).value].id
              && |r.store.customers| == |s.customers|
    ensures Resolve(s.customers, IncomingOf(f)).None? ==>
              r.customerId == freshId && |r.store.customers| == |s.customers| + 1
  {
    var found := FindOrCreateCustomer(s, IncomingOf(f), freshId, now);
    var booked := AddBooking(found.store, WebhookBooking(f, found.value.id, now), bookingId, now);
    Receipt(booked.store, found.value.id, booked.value)
  }

  /** The body of `POST` after parsing: normalise, then deliver.  Every
      webhook booking is pending, has a non-empty duplicate-free service
      list, and snapshots the incoming fields. */
  function Receive(s: Store, data: Payload, freshId: string, bookingId: string, now: Timestamp)
    : (r: Receipt)
    ensures r.booking.status == Pending
    ensures |r.booking.services| > 0 && NoDup(r.booking.services)
    ensures r.booking.customerId == r.customerId
    ensures r.booking.customerName != ""
    ensures AllDigits(r.booking.phone) && |r.booking.phone| <= 10
    ensures r.store.bookings == s.bookings + [r.booking]
  {
    Deliver(s, Normalize(data), freshId, bookingId, now)
  }

  /** Given a fresh customer id, a delivery keeps at most one customer per
      phone, duplicate-free vehicle lists, unique ids, and every
      `totalBookings` equal to the number of bookings naming that customer. */
  lemma DeliverKeepsConsistent(s: Store, f: Fields, freshId: string, bookingId: string,
                               now: Timestamp)
    requires Consistent(s) && FreshCustomerId(s, freshId)
    ensures Consistent(Deliver(s, f, freshId, bookingId, now).store)
  {
    var found := FindOrCreateCustomer(s, IncomingOf(f), freshId, now);
    ResolveAndBookKeepsConsistent(s, IncomingOf(f), freshId, now,
                                  WebhookBooking(f, found.value.id, now), bookingId, now);
  }

  /** Given unique ids and a fresh customer id, the resolved customer's
      stored record has one more booking than before (one, if just created),
      its `lastVisit` is the delivery time, and it lists the incoming
      vehicle. */
  lemma DeliverCountsBooking(s: Store, f: Fields, freshId: string, bookingId: string,
                             now: Timestamp)
    requires IdsUnique(s.customers) && FreshCustomerId(s, freshId)
    ensures var r := Deliver(s, f, freshId, bookingId, now);
            var k := ResolvedIndex(s, IncomingOf(f));
            k < |r.store.customers| && r.store.customers[k].id == r.customerId
            && r.store.customers[k].lastVisit == now
            && r.store.customers[k].totalBookings
               == (if k < |s.customers| then s.customers[k].totalBookings + 1 else 1)
            && (f.vehicle != "" ==> f.vehicle in r.store.customers[k].vehicles)
  {
    var found := FindOrCreateCustomer(s, IncomingOf(f), freshId, now);
    ResolveAndBookCounts(s, IncomingOf(f), freshId, now,
                         WebhookBooking(f, found.value.id, now), bookingId, now);
  }

  /** Two deliveries with the same non-empty phone, the first of which
      created its customer, land on the same customer whatever the names,
      and the second one's vehicle ends up on that customer. */
  lemma RepeatPhoneSameCustomer(s: Store, f1: Fields, f2: Fields, c1: string, c2: string,
                                b1: string, b2: string, t1: Timestamp, t2: Timestamp)
    requires f1.phone == f2.phone && f2.phone != ""
    requires Resolve(s.customers, IncomingOf(f1)).None?
    ensures var r1 := Deliver(s, f1, c1, b1, t1);
            var r2 := Deliver(r1.store, f2, c2, b2, t2);
            r2.customerId == r1.customerId
            && |r2.store.customers| == |s.customers| + 1
            && (f2.vehicle != "" ==> f2.vehicle in r2.store.customers[|s.customers|].vehicles)
  {
    var found1 := FindOrCreateCustomer(s, IncomingOf(f1), c1, t1);
    var d1 := WebhookBooking(f1, found1.value.id, t1);
    CreatedCustomerFoundByPhone(s, IncomingOf(f1), c1, t1, d1, b1, t1, IncomingOf(f2));
    var r1 := Deliver(s, f1, c1, b1, t1);
    if f2.vehicle != "" {
      var found2 := FindOrCreateCustomer(r1.store, IncomingOf(f2), c2, t2);
      MergedVehicleStays(r1.store, IncomingOf(f2), c2, t2,
                         WebhookBooking(f2, found2.value.id, t2), b2, t2);
    }
  }
}
